=== FILE: README.md ===
# laravel-advanced-search, modelled in Dafny

This project models the condition compiler of `laravel-advanced-search`, and proves properties
of the model. The package has two halves:

- **The search side** (`AdvancedSearchTrait`). It turns a *conditions array* into query-builder
  calls:
  - a keyword search;
  - `where` conditions, normalised by `sortOutWhereConditionsPro` and compiled by
    `advanceSearch` / `makeComboQueryPro`;
  - an order, an offset/limit, and the page size of `getList`.
- **The request side** (`ConditionsGeneratorTrait`). It binds a request's input to a search
  template and produces the conditions array:
  - paging aliases and `+field`/`-field` sort tokens;
  - the `more` flattening;
  - `appendConditions`;
  - the `wheres` binding of `generateWhereKeyValue`;
  - the small input helpers `isVaildInput`, `fireInput`, `appendInput` and `when`.

The `When` choice object and the `ModelScope` value object are modelled as well.

**How PHP is represented:**
- Values are a datatype `Val` (`php_values.dfy`).
- Arrays are ordered key/value sequences, with PHP's integer-key normalisation, `array_merge`
  renumbering, and assignment in place.
- Laravel's dot-path helpers `array_has`, `array_get` and `array_forget` are in
  `dot_path.dfy`.
- `collect($object)` goes through PHP's `(array)` cast: each property in declaration order under
  its mangled key (`"\0*\0name"` for protected, `"\0Class\0name"` for private ones). A
  closure is the exception: the cast wraps it like a scalar, as `[0 => $closure]`.
- The query builder is replaced by the list of calls it would receive (`Op` in `query.dfy`).

**Error semantics:**
- PHP 7 semantics are used throughout. A notice or warning is not a failure: a missing index
  reads as null, `foreach` over a non-array does nothing, and `array_merge` of a non-array
  gives null.
- A thrown `Error` becomes a `Failure` (`failures.dfy`): an object used as an array, an offset
  unset on a string, a missing scope, or a call through a null callback. PHP 7 ignores an
  offset unset on null, a boolean or an integer.

**Inputs passed as parameters:**
- Calls to closures are given as values: `Closure(tag, ret)` carries what the call returns.
- The HTTP request, the configuration and the model class are parameters. A model class is a
  `Host` with a name and a method set.

Modules follow the source:
- `Normalize`: `sortOutWhereConditionsPro`.
- `Operators`: `convertOperator`.
- `WhereSearch`: `advanceSearch`, `makeComboQueryPro`.
- `ListSearch`: `simpleLikeSearch`, `orderSearch`, `offsetSearch`, `getListQuery`,
  `getList`, `getCount`.
- `ConditionsGenerator`: the generator trait.
- `Whens`, `ModelScopes`.
- `PhpStrings`, `PhpValues`, `DotPath`, `Wrappers`, `Failures`, `Query`: support modules.

`company.name` and `company$name` are different keys: a `.` splits the field from an
operator, and `$` becomes `.` only after that split (see `Normalize.DollarIsNotDot`).

## Model

| member | source | states |
|---|---|---|
| Normalize.NormalizeAll | src/AdvancedSearchTrait.php:274-317 | The normaliser succeeds exactly when every entry does. It yields one group per entry, in order, and a failure names an entry that raises that error. |
| Normalize.SortOutFailsOnlyOnWhen | src/AdvancedSearchTrait.php:274-317 | Normalising a `wheres` list fails exactly when a positional item is a `When` object. The error is then "object used as array". The malformed-conditions exception is unreachable. |
| Normalize.SortOut | src/AdvancedSearchTrait.php:274-317 | A missing or non-array `wheres` gives no groups. A successful run gives one group per `wheres` entry. |
| Normalize.SortOutShape | src/AdvancedSearchTrait.php:279-284 | An entry is handed on untouched exactly when it is a positional closure, raw expression or model scope. |
| Normalize.NormalizePositional | src/AdvancedSearchTrait.php:279-287 | A positional item gives the field before any `->` and its `value`. Closures, expressions and scopes pass through. A `When` object cannot be indexed and raises. |
| Normalize.NormalizeKeyed | src/AdvancedSearchTrait.php:288-310 | A keyed entry always gives an operator array. A scalar becomes `[eq => v]` and an array is kept. For a key without a dot, the field is the key with every `$` turned into `.`, and no `$` is left in any field. |
| Normalize.DottedKey | src/AdvancedSearchTrait.php:289-309 | `a.b… => v` is field `a` (with `$` read as `.`) with the operator before the next dot of `b`. |
| Normalize.DollarIsNotDot | src/AdvancedSearchTrait.php:288-310 | `a$b => v` is an equality on the relation column `a.b`, while `a.b => v` applies operator `b` to column `a`. |
| Normalize.DottedWordEntry | tests/Unit/AdvancedSearchTrait/SortOutWhereConditionsProTest.php:69-92 | A key `field.operator` made of plain words normalises to `field => [operator => v]`, as the normaliser tests expect. |
| Operators.ConvertOperator | src/AdvancedSearchTrait.php:319-331 | Table tokens map to their SQL operator and other strings are unchanged. With PHP 7's loose `==`, integer key 0 becomes `=`, and other integers are unchanged. |
| Operators.ConvertOperatorIdempotent | src/AdvancedSearchTrait.php:319-331 | Translating an operator twice is the same as translating it once. |
| Operators.TableTokens | src/AdvancedSearchTrait.php:319-331 | Every token of the table is a lower-case word that is stored as a string key. None is `in`, `not_in`, `is`, `is_not` or `mix`. |
| WhereSearch.CombinatorOf | src/AdvancedSearchTrait.php:243 | A group joins with `where` exactly when `mix` loosely equals `'and'`, otherwise with `orWhere`. |
| WhereSearch.OperatorCall | src/AdvancedSearchTrait.php:246-261 | `in` emits `whereIn` exactly for a non-empty array or any collection, and nothing otherwise. `not_in` emits `whereNotIn` exactly for a non-empty array, and nothing otherwise. Otherwise, a key loosely equal to `is` emits `whereNull`, and a string whose snake case is `is_not` emits `whereNotNull`. Any other operator is one comparison with the translated operator and the given value. Keys are compared loosely, as PHP 7 does. |
| WhereSearch.ComboCalls | src/AdvancedSearchTrait.php:243-262 | An operator map yields at most one call per pair, all on the group's column and join. |
| WhereSearch.ComparisonsFromPairs | src/AdvancedSearchTrait.php:243-262 | Every comparison of a group comes from one of its pairs, with the translated operator and that pair's value. |
| WhereSearch.PlainComparisons | src/AdvancedSearchTrait.php:243-262 | A map of plain comparisons yields exactly one comparison per pair, in the map's order. |
| WhereSearch.AccessibleGroup | src/AdvancedSearchTrait.php:193-209 | The group of an array or collection holds the calls for its pairs without `mix`, joined as `mix` says. |
| WhereSearch.MakeComboQuery | src/AdvancedSearchTrait.php:240-263 | Every call of a group is on its column and joined by the group's `mix` word. |
| WhereSearch.SplitMix | src/AdvancedSearchTrait.php:192-193 | An array or collection gives its `mix` (default `and`) and the pairs without `mix`. Null, booleans and integers give `and` and no pairs, since PHP 7 ignores the unset. A string raises "Cannot unset string offsets", and other objects raise as arrays. |
| WhereSearch.ScalarOperatorsEmptyGroup | src/AdvancedSearchTrait.php:192-209 | A positional item whose value is null, a boolean or an integer still searches, with an empty group. Among scalars, only a string fails the search. |
| WhereSearch.FieldGroup | src/AdvancedSearchTrait.php:196-209 | A dotted field becomes `whereHas` on the camel-cased text before the dot. Any other field becomes a nested `where` group. The group succeeds exactly when the `mix` split does. |
| WhereSearch.MixIsNotAnOperator | src/AdvancedSearchTrait.php:193-209 | For an array or collection the group succeeds. None of its comparisons uses `mix` as an operator, and all join by the `mix` word. |
| WhereSearch.NullTestsIgnoreValue | src/AdvancedSearchTrait.php:255-258 | Every null-test key (loosely `is`, or any spelling whose snake case is `is_not`) emits the same call whatever its value: `whereNull` for `is`, `whereNotNull` otherwise. |
| WhereSearch.NullTestSpellings | src/AdvancedSearchTrait.php:255-258 | `is` is a null test. `is_not` and the camel-cased `isNot` are not-null tests, because `snake_case('isNot')` is `is_not`. |
| WhereSearch.ScopeMethodLookup | src/AdvancedSearchTrait.php:216-219 | Because method lookup ignores case, `scope` plus the title-cased name exists exactly when `scope` plus the name exists. |
| WhereSearch.ScopeCall | src/AdvancedSearchTrait.php:214-224 | A scope runs exactly when its class is unset or is the searched model. Otherwise the search raises "scope not found", naming the class and `scope` plus the title-cased name. |
| WhereSearch.ItemCalls | src/AdvancedSearchTrait.php:190-226 | A field condition becomes its `FieldGroup` and fails exactly when that group fails. A closure becomes `where($closure)`, an expression becomes `whereRaw` of its text, and a model scope becomes its `ScopeCall`. Each normalised item makes exactly one `where`-family call. |
| WhereSearch.AllCalls | src/AdvancedSearchTrait.php:187-228 | The loop succeeds exactly when every item does, and makes only `where`-family calls. |
| WhereSearch.AdvanceSearch | src/AdvancedSearchTrait.php:185-230 | Every call `advanceSearch` makes is a `where`-family call. |
| WhereSearch.AdvanceSearchOnePerEntry | src/AdvancedSearchTrait.php:185-230 | A successful search makes exactly one call per `wheres` entry, in order. |
| WhereSearch.RelationKey | src/AdvancedSearchTrait.php:288-310 | `rel$col.op => v` of plain words normalises to column `rel.col` with the single operator `op`. |
| WhereSearch.DottedColumnGroup | src/AdvancedSearchTrait.php:196-203 | A dotted column with one comparison is `whereHas(camel(rel))` holding that one comparison, joined by `where`. |
| WhereSearch.RelationComparison | tests/Unit/AdvancedSearchTrait/WhereSearchTest.php:47 | End to end, `rel$col.op => v` becomes `whereHas` on the relation with one SQL comparison of `rel.col`. |
| ListSearch.Keyword | src/AdvancedSearchTrait.php:159-167 | With none of `keyword`, `search`, `key` present, the keyword is `''`. Its precedence is stated by `ListSearch.KeywordPrecedence`. |
| ListSearch.SimpleLikeSearch | src/AdvancedSearchTrait.php:157-173 | One `searchKeyword` call is made exactly when the keyword is truthy, and it carries that keyword. |
| ListSearch.KeywordPrecedence | src/AdvancedSearchTrait.php:159-167 | The keyword comes from the first present of `keyword`, `search`, `key`, even when that entry is empty. |
| ListSearch.OrderSearch | src/AdvancedSearchTrait.php:341-355 | A string order is one `orderBy` with `direction` (default `desc`). An array or collection order gives one `orderBy` per pair, in order. Anything else gives none. |
| ListSearch.OffsetSearch | src/AdvancedSearchTrait.php:365-374 | A skip and a take happen exactly when `limit` is present and greater than 0. The take is `(int)limit`. |
| ListSearch.OffsetIsNotHonoured | src/AdvancedSearchTrait.php:367-368 | The value under `offset` never changes the query: only the misspelt `offiset` is read. |
| ListSearch.OffsetSkipsNothing | src/AdvancedSearchTrait.php:367-370 | Without an `offiset` entry every skip is zero, whatever `offset` holds. |
| ListSearch.GetListQuery | src/AdvancedSearchTrait.php:56-77 | The query is built from, in order: eager loads, soft-deleted rows, keyword, wheres, order and offset. It fails exactly when `advanceSearch` fails, and includes soft-deleted rows exactly when `withTrashed` is truthy. |
| ListSearch.PageSize | src/AdvancedSearchTrait.php:97-100 | With none of the four page-size sources present, the page size is the configured value. Its precedence is stated by `ListSearch.PageSizePrecedence`. |
| ListSearch.PageSizePrecedence | src/AdvancedSearchTrait.php:97-100 | The page size comes from the first present of: conditions `page_size`, conditions `pageSize`, request `page_size`, request `pageSize`. Otherwise it is the configured value. |
| ListSearch.GetList | src/AdvancedSearchTrait.php:91-110 | The result is paginated exactly when `page` is present, with the `(int)` page size, the columns and that page. Otherwise it is every row with the selected columns. |
| ListSearch.GetCountAsWritten | src/AdvancedSearchTrait.php:38-43 | The count includes soft-deleted rows exactly when the column list is truthy. |
| ListSearch.GetCountAsWrittenCountsTrashed | src/AdvancedSearchTrait.php:42 | With the default `['*']` columns and `withTrashed` false, the count still includes soft-deleted rows. |
| ListSearch.GetCount | src/AdvancedSearchTrait.php:38-43 | The corrected count drops `page` and includes soft-deleted rows exactly when `withTrashed` asks for them. |
| ListSearch.GetCountIgnoresColumns | src/AdvancedSearchTrait.php:38-43 | The corrected count does not depend on the selected columns. |
| Whens.New | src/When.php:13-20 | The condition is the truthiness of the value, or of a closure's result. Both branches start null. |
| Whens.Make | src/When.php:22-25 | With no argument `make` fails for want of the condition. Otherwise it builds from the first argument. |
| Whens.Success | src/When.php:33-37 | Sets only the success branch. |
| Whens.Fail | src/When.php:45-49 | Sets only the fail branch. |
| Whens.Result | src/When.php:57-66 | Gives the branch the condition selects. With `handle`, a closure there is called. |
| Whens.ResultOfBuiltChoice | tests/Unit/WhenTest.php:13-46 | A built choice yields its success value exactly when the evaluated condition is truthy, and its fail value otherwise. |
| Whens.LatestCallWins | src/When.php:33-49 | The latest `success`/`fail` call counts, and an unset branch yields null. |
| Whens.HandleOnlyCallsClosures | tests/Unit/WhenTest.php:48-66 | `result(true)` differs from `result()` only by calling a chosen closure. |
| ModelScopes.New | src/ModelScope.php:16-20 | A new scope reports its name and arguments, and a null class. |
| ModelScopes.SetClassName | src/ModelScope.php:42-47 | Only the class name changes. |
| ModelScopes.SetClassNameLatestWins | src/ModelScope.php:42-55 | Setting the class twice keeps the second value. |
| ConditionsGenerator.GetInputArgs | src/ConditionsGeneratorTrait.php:237-240 | An input read is what its path resolves to, or null when it does not resolve. |
| ConditionsGenerator.IsValidInput | src/ConditionsGeneratorTrait.php:249-254 | An input is valid exactly when its path resolves to something other than null or `''`. |
| ConditionsGenerator.FireInput | src/ConditionsGeneratorTrait.php:81-88 | An invalid input gives null without a call. A valid input gives the callback's result. A valid input with a null callback raises. |
| ConditionsGenerator.AppendInput | src/ConditionsGeneratorTrait.php:264-269 | An invalid input gives null. A valid input gives its text followed by the suffix, and fails exactly when it has no string form. |
| ConditionsGenerator.AppendIsFire | src/ConditionsGeneratorTrait.php:264-269 | `appendInput` is `fireInput` with the concatenating callback. |
| ConditionsGenerator.When | src/ConditionsGeneratorTrait.php:280-290 | A value that is not blank after trimming gives the callback (called if a closure). Otherwise a truthy default is used likewise. Otherwise the result is null. |
| ConditionsGenerator.WhenFiresOnFalseAndZero | src/ConditionsGeneratorTrait.php:282-283 | `false`, `0` and a padded word are not blank, so `when` fires for them. |
| ConditionsGenerator.AppendConditions | src/ConditionsGeneratorTrait.php:39-49 | The conditions keep distinct keys. The content is stated by `AppendConditionsRoot`, `MergedWheres` and `AppendConditionsWheres`. |
| ConditionsGenerator.AppendConditionsRoot | src/ConditionsGeneratorTrait.php:39-49 | A root key other than `wheres` takes the appended value when given one, and keeps its value otherwise. |
| ConditionsGenerator.MergedWheres | src/ConditionsGeneratorTrait.php:42-46 | The `wheres` of the result is the `array_merge` of the existing and the appended `wheres`. |
| ConditionsGenerator.AppendConditionsWheres | src/ConditionsGeneratorTrait.php:42 | Appended `wheres` follow the existing ones: positional conditions are concatenated in order, and an appended keyed condition overrides. |
| ConditionsGenerator.HandleInputArgs | src/ConditionsGeneratorTrait.php:217-227 | Without a non-empty `more` array the input is untouched. The conditions are never touched. |
| ConditionsGenerator.MoreFlattens | src/ConditionsGeneratorTrait.php:220-224 | After flattening, a key reads from `more` when `more` has it, and from the original input otherwise. `more` itself is gone. |
| ConditionsGenerator.ConsumeAliases | src/ConditionsGeneratorTrait.php:178-186 | The alias loop keeps condition keys distinct, and changes nothing when no alias path is present in the input. |
| ConditionsGenerator.ConsumeAliasConditions | src/ConditionsGeneratorTrait.php:179-186 | One alias step sets its target to the alias's value when the alias resolves, and leaves every other root condition alone. |
| ConditionsGenerator.AliasesSetPage | src/ConditionsGeneratorTrait.php:161-186 | `page` ends up with the plain `page` input when present, else with `paginator.page`, else with its old value. |
| ConditionsGenerator.AliasesSetPageSize | src/ConditionsGeneratorTrait.php:161-186 | `page_size` ends up with the plain `page_size` input when present, else with `paginator.limit`, else with its old value. |
| ConditionsGenerator.AliasesKeepOthers | src/ConditionsGeneratorTrait.php:179-186 | The alias loop changes no root condition besides `wheres`, `page` and `page_size`. |
| ConditionsGenerator.AliasesConsumeInput | src/ConditionsGeneratorTrait.php:179-186 | After the loop the plain `page` and `page_size` inputs are gone, and the sort paths resolve as before. |
| ConditionsGenerator.SortToken | src/ConditionsGeneratorTrait.php:201-206 | A string token is used exactly when it starts with `+` or `-`, and gives `asc` or `desc`. A token fails exactly when it is a raw expression with a signed text. |
| ConditionsGenerator.SortTokenRoundTrip | src/ConditionsGeneratorTrait.php:201-206 | A field written behind a sign is read back as that field and direction. |
| ConditionsGenerator.SortPairs | src/ConditionsGeneratorTrait.php:200-206 | The loop yields at most one pair per token, and every pair's direction is `asc` or `desc`. |
| ConditionsGenerator.Orders | src/ConditionsGeneratorTrait.php:200-206 | `$orders` is built exactly when the pairs loop succeeds. It has distinct keys, which are exactly the fields of the pairs. |
| ConditionsGenerator.OrdersFail | src/ConditionsGeneratorTrait.php:200-206 | The sort loop fails exactly when some token is a signed raw expression. |
| ConditionsGenerator.SortPairsFail | src/ConditionsGeneratorTrait.php:200-206 | The pairs loop raises at a signed raw expression and at nothing else. |
| ConditionsGenerator.LaterSortWins | src/ConditionsGeneratorTrait.php:205 | A later token for a field reassigns that field's direction in place. A skipped token changes nothing. |
| ConditionsGenerator.RequestSortsRead | src/ConditionsGeneratorTrait.php:189-197 | The request's sort list is the `paginator.sort` token followed by the `paginator.sorts` list, both read from the input. |
| ConditionsGenerator.SortTokens | src/ConditionsGeneratorTrait.php:189-199 | The tokens are either the template's `order()` collected, or a non-empty list of truthy request tokens. |
| ConditionsGenerator.SortSource | src/ConditionsGeneratorTrait.php:189-199 | The sort loop reads the request's truthy tokens. Only when there are none does it read the template's `order()`, unfiltered. |
| ConditionsGenerator.TemplateOrderIgnored | src/ConditionsGeneratorTrait.php:198-199 | With a truthy request sort, the template's `order()` has no effect. |
| ConditionsGenerator.TemplateOrderExample | tests/Unit/ConditionGeneratorTrait/HandlePaginate.php:30-38 | The order `'+id'` sorts by `id` ascending. |
| ConditionsGenerator.TemplateExpressionOrder | src/ConditionsGeneratorTrait.php:198-206 | An `order()` of `DB::raw('-id')` is collected through the object cast, and its text sorts by `id` descending. |
| ConditionsGenerator.TemplateWhenOrder | src/ConditionsGeneratorTrait.php:198-206 | An `order()` that is a `When` is collected as its three properties. Both its `+rank` and its `-id` branch sort, whatever the condition. |
| ConditionsGenerator.RequestSortsExample | tests/Unit/ConditionGeneratorTrait/HandlePaginate.php:12-28 | The tokens `['+rank', '-id']` give `rank` ascending, then `id` descending. |
| ConditionsGenerator.HandlePaginate | src/ConditionsGeneratorTrait.php:176-210 | Pagination fails exactly when the sort loop does. |
| ConditionsGenerator.PaginateOrder | src/ConditionsGeneratorTrait.php:198-207 | `order` is set to the pairs of the chosen sort tokens. |
| ConditionsGenerator.PaginatePages | src/ConditionsGeneratorTrait.php:176-186 | `page` and `page_size` follow alias precedence over the original input. |
| ConditionsGenerator.PaginateKeepsOthers | src/ConditionsGeneratorTrait.php:176-210 | No other root condition except `wheres` changes. |
| ConditionsGenerator.Bind | src/ConditionsGeneratorTrait.php:128-159 | A `When` is first replaced by its chosen branch. A positional closure, expression or model scope is kept under its integer key. A keyed entry binds its key to the entry, or to the closure's result, and is dropped exactly when that value is null or `''`. An entry binds to at most one pair, and no bound value is null or `''`. |
| ConditionsGenerator.PositionalFieldIsValidInput | src/ConditionsGeneratorTrait.php:141-158 | A positional field is bound exactly when `isVaildInput` holds for it, and then to that input. |
| ConditionsGenerator.WhenEntryBindsChoice | src/ConditionsGeneratorTrait.php:131-133 | A `When` entry binds as its chosen branch, resolved once. |
| ConditionsGenerator.BindAll | src/ConditionsGeneratorTrait.php:111-115 | The bound `wheres` have distinct keys. Which value each key gets is stated by `BindAllLookup`. |
| ConditionsGenerator.BindAllLookup | src/ConditionsGeneratorTrait.php:111-115 | In the bound `wheres` the last pair for a key wins, and no bound condition is null or `''`. |
| ConditionsGenerator.GetConditions | src/ConditionsGeneratorTrait.php:97-118 | It fails exactly when pagination fails. Otherwise `wheres` becomes a collection. |
| ConditionsGenerator.GetConditionsParts | src/ConditionsGeneratorTrait.php:97-118 | The result's `order`, `page` and `page_size` are those pagination chose over the flattened input. `wheres` is the accumulated and template `wheres` bound against the remaining input. |
| ConditionsGenerator.NoMoreKeepsArgs | src/ConditionsGeneratorTrait.php:99-102 | Without a non-empty `more` the input is the arguments as given. |
| ConditionsGenerator.OrderFromTemplate | tests/Unit/ConditionGeneratorTrait/HandlePaginate.php:30-38 | A fresh binder with order `'+id'` and an empty request yields `order == [id => asc]`. |
| DotPath.HasGetAgree | src/ConditionsGeneratorTrait.php:237-254 | `array_has` holds exactly when the path resolves, and `array_get` returns what it resolves to. |
| DotPath.ResolveFrame | src/ConditionsGeneratorTrait.php:184 | Forgetting a path leaves every path apart from it where it was. |

## Left out

- Not modelled, because they are not part of the condition compiler: the GraphQL (Lighthouse) directives and types, the console command, the `WithAndSelectForGraphQLGeneratorTrait`, and the service provider.
- SQL and Eloquent are not modelled. Queries are lists of builder calls. Relations, soft deletes and pagination are not executed.
- `paginate`'s own handling of a page size of 0 is not modelled. The model records the `(int)` value passed.
- `Request::except(['page'])` appended to the paginator links is not modelled.
- `scopeSearchKeyword` (src/AdvancedSearchTrait.php:384-398) and the schema lookup behind it are not modelled. The model records the `searchKeyword` call and its keyword.
- `dynamicGetList` is not modelled: it only forwards to `getList`.
- `setInputArgs` and the default `wheres()`/`order()` are not modelled as operations. The input is a parameter of `getConditions`, and the template is the `Template` datatype.
- Floats are not modelled, nor exponent strings in `(int)` casts or integer overflow.
- A collection's string form (its JSON) is not modelled. Concatenating a collection is treated as having no string form, and a collection as a positional field gives the empty column.
- Closures are modelled by their precomputed result. The arguments a closure receives (the input in `when`, the `When` constructor arguments) are not modelled.
- Object identity is not modelled. `success`, `fail` and `setClassName` return the updated value rather than the same mutated object. For the same reason, `unset($operatorAndValue['mix'])` on a Collection (src/AdvancedSearchTrait.php:193) does not remove `mix` from a later `wheres` entry that holds the same collection object. Each entry is modelled as its own value.
- Letter case is mapped for ASCII only.
- `array_key_exists` with a boolean key, which differs between PHP versions, is not modelled. A boolean positional field reads the integer key 0 or 1.
- Only PHP 7 is modelled. Under PHP 8 several warnings become errors: an illegal array offset, and a scalar or object given to `explode`, `substr` or `array_merge`.
- `getInputArgs()` without a key (the whole input) and its `$default` argument are not modelled: every call in the binder passes a key and no default.
- A generator's `inputArgs` that is not an array is not modelled (`getConditions` always receives an array).
- ConditionsGenerator.GetConditionsParts: it requires the generator's conditions to have distinct keys, which every PHP array has.
- ListSearch.GetList: `perPage` is the `(int)` cast of the chosen page size. What `paginate` then does with 0 or a negative number is not modelled.

## Findings

| source | as written | input that shows it | evidently intended | confidence | as-written member | corrected member |
|---|---|---|---|---|---|---|
| src/AdvancedSearchTrait.php:42 | `getCount` passes `$selects` as the third argument of `getListQuery`, whose third parameter is `$withTrashed` | `getCount([], null, ['*'], false)`: the column list `['*']` is truthy, so soft-deleted rows are counted | pass `$withTrashed` and drop `$selects` (a count has no columns) | high (not executed) | ListSearch.GetCountAsWritten, ListSearch.GetCountAsWrittenCountsTrashed | ListSearch.GetCount, ListSearch.GetCountIgnoresColumns |

=== FILE: conditions_generator.dfy ===
/** `ConditionsGeneratorTrait`: binding a request's input to a search template and producing
    the conditions array the search trait consumes. */
module ConditionsGenerator {
  import opened Wrappers
  import opened PhpStrings
  import opened PhpValues
  import opened DotPath
  import opened Failures
  import Whens

  /** The binder's state: the conditions built so far and the input arguments. */
  datatype Generator = Generator(conditions: Entries, inputArgs: Entries)

  /** The overridable parts of a binder: its `wheres()` and `order()` methods. */
  datatype Template = Template(wheres: Val, order: Val)

  /** A fresh binder: conditions with an empty `wheres`, no input yet. */
  function Initial(): (g: Generator)
    ensures Lookup(g.conditions, StrKey("wheres")) == Some(Arr([]))
    ensures DistinctKeys(g.conditions)
  {
    Generator([(StrKey("wheres"), Arr([]))], [])
  }

  // ---------------------------------------------------------------------------
  // Input helpers
  // ---------------------------------------------------------------------------

  /** `getInputArgs($key)`: `array_get` on the input, null when absent. */
  function GetInputArgs(g: Generator, key: string): (r: Val)
    ensures r == Resolve(g.inputArgs, key).GetOr(Null)
  {
    HasGetAgree(g.inputArgs, key, Null);
    GetOr(g.inputArgs, key, Null)
  }

  /** `isVaildInput($key)`: the key is present and holds neither null nor `''`; that is,
      the path resolves to something other than null or the empty string. */
  function IsValidInput(g: Generator, key: string): (r: bool)
    ensures r <==> Resolve(g.inputArgs, key).Some? && Resolve(g.inputArgs, key).value != Null
                   && Resolve(g.inputArgs, key).value != Str("")
  {
    HasGetAgree(g.inputArgs, key, Null);
    Has(g.inputArgs, key) && GetInputArgs(g, key) != Null && GetInputArgs(g, key) != Str("")
  }

  /** `fireInput($key, $fire)`: null without calling anything when the input is not valid;
      otherwise the callback applied to the input (a missing callback cannot be called). */
  function FireInput(g: Generator, key: string, fire: Option<Val -> Val>): (r: Result<Val, Failure>)
    ensures !IsValidInput(g, key) ==> r == Ok(Null)
    ensures IsValidInput(g, key) && fire.Some? ==> r == Ok(fire.value(GetInputArgs(g, key)))
    ensures IsValidInput(g, key) && fire.None? ==> r == Err(NotCallable)
  {
    if !IsValidInput(g, key) then Ok(Null)
    else match fire
      case Some(f) => Ok(f(GetInputArgs(g, key)))
      case None => Err(NotCallable)
  }

  /** The callback `appendInput` hands to `fireInput`: string concatenation. */
  function Concat(append: string): Val -> Val
  {
    v => match ToText(v)
         case Some(t) => Str(t + append)
         case None => Null
  }

  /** `appendInput($key, $append)`: the valid input with `append` concatenated; null for an
      invalid input; an error when the input has no string form. */
  function AppendInput(g: Generator, key: string, append: string): (r: Result<Val, Failure>)
    ensures !IsValidInput(g, key) ==> r == Ok(Null)
    ensures IsValidInput(g, key) && ToText(GetInputArgs(g, key)).Some? ==>
              r == Ok(Str(ToText(GetInputArgs(g, key)).value + append))
    ensures r.Err? <==> IsValidInput(g, key) && ToText(GetInputArgs(g, key)).None?
  {
    if !IsValidInput(g, key) then Ok(Null)
    else match ToText(GetInputArgs(g, key))
      case Some(t) => Ok(Str(t + append))
      case None => Err(NoStringConversion)
  }

  /** `appendInput` is `fireInput` with the concatenating callback wherever the value has a
      string form. */
  lemma AppendIsFire(g: Generator, key: string, append: string)
    requires !IsValidInput(g, key) || ToText(GetInputArgs(g, key)).Some?
    ensures AppendInput(g, key, append) == FireInput(g, key, Some(Concat(append)))
  {
  }

  /** Calling a value that may be a closure: the closure's result, or the value itself. */
  function Invoke(c: Val): Val
  {
    if c.Closure? then c.ret else c
  }

  /** What `when` treats as "no value": null, the empty array, or a string that trims to
      nothing. `false` and `0` are values. */
  predicate Blank(v: Val)
  {
    v.Null? || v == Arr([]) || (v.Str? && forall i :: 0 <= i < |v.s| ==> IsTrimChar(v.s[i]))
  }

  /** A string trims to nothing exactly when it is made of trim characters only. */
  lemma TrimEmpty(s: string)
    ensures Trim(s) == "" <==> forall i :: 0 <= i < |s| ==> IsTrimChar(s[i])
  {
    if Trim(s) != "" {
      assert !IsTrimChar(s[LeadingBlanks(s)]);
    }
  }

  /** `when($value, $callback, $default)`: the callback (called with the input when it is a
      closure) unless the trimmed value is blank; then the default likewise when truthy;
      otherwise null. A closure carries its result, so the input it is called with is not a
      parameter. */
  function When(value: Val, callback: Val, default: Val): (r: Val)
    ensures !Blank(value) ==> r == Invoke(callback)
    ensures Blank(value) && Truthy(default) ==> r == Invoke(default)
    ensures Blank(value) && !Truthy(default) ==> r == Null
  {
    var v := if value.Str? then Str(Trim(value.s)) else value;
    if value.Str? then
      TrimEmpty(value.s);
      Choose(v, callback, default)
    else Choose(v, callback, default)
  }

  /** The choice `when` makes once the value is trimmed. */
  function Choose(v: Val, callback: Val, default: Val): Val
  {
    if v != Str("") && !v.Null? && v != Arr([]) then Invoke(callback)
    else if Truthy(default) then Invoke(default)
    else Null
  }

  /** `false` and `0` are not blank, so `when` runs the callback for them, as it does for any
      string with a visible character. */
  lemma WhenFiresOnFalseAndZero(callback: Val, default: Val)
    ensures When(Bool(false), callback, default) == Invoke(callback)
    ensures When(Int(0), callback, default) == Invoke(callback)
    ensures When(Str(" x "), callback, default) == Invoke(callback)
  {
    assert !IsTrimChar(" x "[1]);
  }

  // ---------------------------------------------------------------------------
  // appendConditions and the input flattening
  // ---------------------------------------------------------------------------

  /** `appendConditions($items)`: the items' `wheres` are merged into the conditions'
      `wheres`, then the other items are merged at the root. */
  function AppendConditions(conditions: Entries, items: Entries): (r: Entries)
    ensures DistinctKeys(r)
  {
    var wheres := ArrayMerge(Get(conditions, StrKey("wheres")), GetOr(items, "wheres", Arr([])));
    MergeDistinct(Put(conditions, StrKey("wheres"), wheres), Forget(items, "wheres"));
    MergeEntries(Put(conditions, StrKey("wheres"), wheres), Forget(items, "wheres"))
  }

  /** A root key other than `wheres` takes the appended value when the items carry it and
      keeps its value otherwise. */
  lemma AppendConditionsRoot(conditions: Entries, items: Entries, s: string)
    requires DistinctKeys(conditions) && DistinctKeys(items) && s != "wheres"
    ensures Lookup(AppendConditions(conditions, items), StrKey(s))
         == if Lookup(items, StrKey(s)).Some? then Lookup(items, StrKey(s)) else Lookup(conditions, StrKey(s))
  {
    var wheres := ArrayMerge(Get(conditions, StrKey("wheres")), GetOr(items, "wheres", Arr([])));
    var root := Put(conditions, StrKey("wheres"), wheres);
    WordKey("wheres");
    PlainForget(items, "wheres");
    var rest := Forget(items, "wheres");
    PutDistinct(conditions, StrKey("wheres"), wheres);
    RemoveDistinct(items, StrKey("wheres"));
    MergeLookupString(root, rest, s);
    LookupPut(conditions, StrKey("wheres"), wheres, StrKey(s));
    LookupRemove(items, StrKey("wheres"), StrKey(s));
  }

  /** The appended `wheres` go after the existing ones: positional conditions keep their
      order with the new ones last, and a keyed condition takes the appended value. */
  lemma AppendConditionsWheres(conditions: Entries, items: Entries, w: Entries, extra: Entries, s: string)
    requires DistinctKeys(conditions) && DistinctKeys(items) && DistinctKeys(w) && DistinctKeys(extra)
    requires Lookup(conditions, StrKey("wheres")) == Some(Arr(w))
    requires Lookup(items, StrKey("wheres")) == Some(Arr(extra))
    ensures var r := Lookup(AppendConditions(conditions, items), StrKey("wheres"));
            r.Some? && r.value.Arr? &&
            Positional(r.value.entries) == Positional(w) + Positional(extra) &&
            Lookup(r.value.entries, StrKey(s))
              == if Lookup(extra, StrKey(s)).Some? then Lookup(extra, StrKey(s)) else Lookup(w, StrKey(s))
  {
    MergedWheres(conditions, items, w, extra);
    MergePositional(w, extra);
    MergeLookupString(w, extra, s);
  }

  /** `appendConditions` puts the `array_merge` of both `wheres` arrays under `wheres`. */
  lemma MergedWheres(conditions: Entries, items: Entries, w: Entries, extra: Entries)
    requires DistinctKeys(conditions) && DistinctKeys(items)
    requires Lookup(conditions, StrKey("wheres")) == Some(Arr(w))
    requires Lookup(items, StrKey("wheres")) == Some(Arr(extra))
    ensures Lookup(AppendConditions(conditions, items), StrKey("wheres")) == Some(Arr(MergeEntries(w, extra)))
  {
    WordKey("wheres");
    PlainForget(items, "wheres");
    PlainKey(items, "wheres", Arr([]));
    MergeKeepsPut(conditions, items, "wheres", Arr(MergeEntries(w, extra)));
  }

  /** `handleInputArgs`: a non-empty array under `more` is removed and merged into the top
      level of the input; anything else leaves the input alone. */
  function HandleInputArgs(g: Generator): (r: Generator)
    ensures r.conditions == g.conditions
    ensures !(GetInputArgs(g, "more").Arr? && |GetInputArgs(g, "more").entries| > 0) ==> r == g
  {
    var more := GetInputArgs(g, "more");
    if more.Arr? && |more.entries| > 0 then
      g.(inputArgs := MergeEntries(Remove(g.inputArgs, StrKey("more")), more.entries))
    else g
  }

  /** After flattening, a string key reads from `more` when `more` has it, and from the
      original input otherwise (`more` itself is gone unless `more` re-adds it). */
  lemma MoreFlattens(g: Generator, more: Entries, s: string)
    requires DistinctKeys(g.inputArgs)
    requires Lookup(g.inputArgs, StrKey("more")) == Some(Arr(more)) && |more| > 0 && DistinctKeys(more)
    ensures Lookup(HandleInputArgs(g).inputArgs, StrKey(s))
         == if Lookup(more, StrKey(s)).Some? then Lookup(more, StrKey(s))
            else if s == "more" then None
            else Lookup(g.inputArgs, StrKey(s))
  {
    WordKey("more");
    PlainKey(g.inputArgs, "more", Null);
    MergeAfterRemove(g.inputArgs, more, "more", s);
  }

  // ---------------------------------------------------------------------------
  // handlePaginate: page aliases
  // ---------------------------------------------------------------------------

  /** `getPageAlias()`: the request paths read for paging and the condition each one fills,
      in the order they are read. */
  const PageAliases: seq<(string, string)> :=
    [("paginator.page", "page"), ("page", "page"), ("paginator.limit", "page_size"), ("page_size", "page_size")]

  /** One alias: when the path is present its value is appended as the named condition and
      the path is removed from the input. */
  function ConsumeAlias(g: Generator, alias: string, target: string): Generator
  {
    if Has(g.inputArgs, alias) then
      Generator(AppendConditions(g.conditions, [(StrKey(target), GetInputArgs(g, alias))]),
                Forget(g.inputArgs, alias))
    else g
  }

  /** The alias loop of `handlePaginate`. */
  function ConsumeAliases(g: Generator, aliases: seq<(string, string)>): (r: Generator)
    ensures DistinctKeys(g.conditions) ==> DistinctKeys(r.conditions)
    ensures (forall i :: 0 <= i < |aliases| ==> !Has(g.inputArgs, aliases[i].0)) ==> r == g
    decreases |aliases|
  {
    if |aliases| == 0 then g
    else ConsumeAliases(ConsumeAlias(g, aliases[0].0, aliases[0].1), aliases[1..])
  }

  /** One alias step: the target condition takes the path's value when the path resolves;
      every other root condition is left alone. */
  lemma ConsumeAliasConditions(g: Generator, alias: string, target: string, s: string)
    requires DistinctKeys(g.conditions) && s != "wheres" && target != "wheres"
    ensures DistinctKeys(ConsumeAlias(g, alias, target).conditions)
    ensures Lookup(ConsumeAlias(g, alias, target).conditions, StrKey(s))
         == if Resolve(g.inputArgs, alias).Some? && s == target then Resolve(g.inputArgs, alias)
            else Lookup(g.conditions, StrKey(s))
  {
    HasGetAgree(g.inputArgs, alias, Null);
    if Has(g.inputArgs, alias) {
      AppendConditionsRoot(g.conditions, [(StrKey(target), GetInputArgs(g, alias))], s);
    }
  }

  /** One alias step leaves every path apart from the alias where it was. */
  lemma ConsumeAliasKeeps(g: Generator, alias: string, target: string, p: string)
    requires Apart(alias, p)
    ensures Resolve(ConsumeAlias(g, alias, target).inputArgs, p) == Resolve(g.inputArgs, p)
  {
    if Has(g.inputArgs, alias) {
      ResolveFrame(g.inputArgs, alias, p);
    }
  }

  /** One alias step removes a plain alias key, and keeps an absent plain key absent. */
  lemma ConsumeAliasRemoves(g: Generator, alias: string, target: string, w: string)
    requires Word(w) && (w == alias || Lookup(g.inputArgs, StrKey(w)).None?)
    requires w == alias || Apart(alias, w)
    ensures Lookup(ConsumeAlias(g, alias, target).inputArgs, StrKey(w)).None?
  {
    WordFacts(w);
    if w == alias {
      PlainKey(g.inputArgs, w, Null);
      PlainForget(g.inputArgs, w);
      LookupRemove(g.inputArgs, StrKey(w), StrKey(w));
    } else if Has(g.inputArgs, alias) {
      ForgetFrame(g.inputArgs, alias, StrKey(w));
    }
  }

  /** Which value a paging condition ends up with: the plain request key when present, else
      the `paginator.` path, else what the conditions held before. */
  function PageValue(input: Entries, plain: string, nested: string, before: Option<Val>): Option<Val>
  {
    if Resolve(input, plain).Some? then Resolve(input, plain)
    else if Resolve(input, nested).Some? then Resolve(input, nested)
    else before
  }

  /** The request names the paging code reads are words. */
  lemma PagingWords()
    ensures Word("page") && Word("page_size") && Word("paginator") && Word("limit")
    ensures Word("sort") && Word("sorts")
    ensures "paginator.page" == Dotted("paginator", "page")
    ensures "paginator.limit" == Dotted("paginator", "limit")
    ensures "paginator.sort" == Dotted("paginator", "sort")
    ensures "paginator.sorts" == Dotted("paginator", "sorts")
  {
  }

  /** The four alias paths are pairwise apart. */
  lemma AliasesApart()
    ensures Apart("paginator.page", "page") && Apart("paginator.page", "paginator.limit")
    ensures Apart("paginator.page", "page_size")
    ensures Apart("page", "paginator.limit") && Apart("page", "page_size")
    ensures Apart("paginator.limit", "page_size") && Apart("paginator.limit", "page")
    ensures Apart("page_size", "page")
  {
    PagingWords();
    PlainAliasesApart();
    PagePathApart();
    LimitPathApart();
  }

  lemma PlainAliasesApart()
    ensures Apart("page", "page_size") && Apart("page_size", "page")
  {
    PagingWords();
    WordsApart("page", "page_size");
    WordsApart("page_size", "page");
  }

  lemma PagePathApart()
    ensures Apart("paginator.page", "page") && Apart("paginator.page", "paginator.limit")
    ensures Apart("paginator.page", "page_size")
  {
    PagingWords();
    WordDottedApart("page", "paginator", "page");
    WordDottedApart("page_size", "paginator", "page");
    DottedApart("paginator", "page", "paginator", "limit");
  }

  lemma LimitPathApart()
    ensures Apart("page", "paginator.limit")
    ensures Apart("paginator.limit", "page_size") && Apart("paginator.limit", "page")
  {
    PagingWords();
    WordDottedApart("page", "paginator", "limit");
    WordDottedApart("page_size", "paginator", "limit");
  }

  /** Each alias path is apart from both sort paths. */
  lemma SortPathsApart(f: string)
    requires f in {"paginator.page", "page", "paginator.limit", "page_size"}
    ensures Apart(f, "paginator.sort") && Apart(f, "paginator.sorts")
  {
    PagingWords();
    if f == "page" || f == "page_size" {
      WordDottedApart(f, "paginator", "sort");
      WordDottedApart(f, "paginator", "sorts");
    } else if f == "paginator.page" {
      DottedApart("paginator", "page", "paginator", "sort");
      DottedApart("paginator", "page", "paginator", "sorts");
    } else {
      DottedApart("paginator", "limit", "paginator", "sort");
      DottedApart("paginator", "limit", "paginator", "sorts");
    }
  }

  /** The alias loop as its four steps. */
  lemma AliasSteps(g: Generator)
    ensures ConsumeAliases(g, PageAliases)
         == ConsumeAlias(ConsumeAlias(ConsumeAlias(ConsumeAlias(g, "paginator.page", "page"),
              "page", "page"), "paginator.limit", "page_size"), "page_size", "page_size")
  {
    var g1 := ConsumeAlias(g, "paginator.page", "page");
    var g2 := ConsumeAlias(g1, "page", "page");
    var g3 := ConsumeAlias(g2, "paginator.limit", "page_size");
    var g4 := ConsumeAlias(g3, "page_size", "page_size");
    assert PageAliases[1..][1..][1..][1..] == [];
    assert ConsumeAliases(g3, PageAliases[1..][1..][1..]) == g4;
  }

  /** After the alias loop `page` holds the plain `page` input when there is one, else the
      `paginator.page` input, else what it held before. */
  lemma {:induction false} AliasesSetPage(g: Generator)
    requires DistinctKeys(g.conditions)
    ensures var r := ConsumeAliases(g, PageAliases);
            Lookup(r.conditions, StrKey("page"))
              == PageValue(g.inputArgs, "page", "paginator.page", Lookup(g.conditions, StrKey("page")))
  {
    AliasSteps(g);
    AliasesApart();
    var g1 := ConsumeAlias(g, "paginator.page", "page");
    var g2 := ConsumeAlias(g1, "page", "page");
    var g3 := ConsumeAlias(g2, "paginator.limit", "page_size");
    ConsumeAliasConditions(g, "paginator.page", "page", "page");
    ConsumeAliasConditions(g1, "page", "page", "page");
    ConsumeAliasConditions(g2, "paginator.limit", "page_size", "page");
    ConsumeAliasConditions(g3, "page_size", "page_size", "page");
    ConsumeAliasKeeps(g, "paginator.page", "page", "page");
  }

  /** After the alias loop `page_size` holds the plain `page_size` input when there is one,
      else the `paginator.limit` input, else what it held before. */
  lemma {:induction false} AliasesSetPageSize(g: Generator)
    requires DistinctKeys(g.conditions)
    ensures var r := ConsumeAliases(g, PageAliases);
            Lookup(r.conditions, StrKey("page_size"))
              == PageValue(g.inputArgs, "page_size", "paginator.limit", Lookup(g.conditions, StrKey("page_size")))
  {
    AliasSteps(g);
    AliasesApart();
    var g1 := ConsumeAlias(g, "paginator.page", "page");
    var g2 := ConsumeAlias(g1, "page", "page");
    var g3 := ConsumeAlias(g2, "paginator.limit", "page_size");
    ConsumeAliasConditions(g, "paginator.page", "page", "page_size");
    ConsumeAliasConditions(g1, "page", "page", "page_size");
    ConsumeAliasConditions(g2, "paginator.limit", "page_size", "page_size");
    ConsumeAliasConditions(g3, "page_size", "page_size", "page_size");
    ConsumeAliasKeeps(g, "paginator.page", "page", "paginator.limit");
    ConsumeAliasKeeps(g1, "page", "page", "paginator.limit");
    ConsumeAliasKeeps(g, "paginator.page", "page", "page_size");
    ConsumeAliasKeeps(g1, "page", "page", "page_size");
    ConsumeAliasKeeps(g2, "paginator.limit", "page_size", "page_size");
  }

  /** The alias loop changes no root condition besides `wheres`, `page` and `page_size`, and
      keeps the keys of the conditions distinct. */
  lemma {:induction false} AliasesKeepOthers(g: Generator, s: string)
    requires DistinctKeys(g.conditions) && s != "wheres" && s != "page" && s != "page_size"
    ensures DistinctKeys(ConsumeAliases(g, PageAliases).conditions)
    ensures Lookup(ConsumeAliases(g, PageAliases).conditions, StrKey(s)) == Lookup(g.conditions, StrKey(s))
  {
    AliasSteps(g);
    var g1 := ConsumeAlias(g, "paginator.page", "page");
    var g2 := ConsumeAlias(g1, "page", "page");
    var g3 := ConsumeAlias(g2, "paginator.limit", "page_size");
    ConsumeAliasConditions(g, "paginator.page", "page", s);
    ConsumeAliasConditions(g1, "page", "page", s);
    ConsumeAliasConditions(g2, "paginator.limit", "page_size", s);
    ConsumeAliasConditions(g3, "page_size", "page_size", s);
  }

  /** After the alias loop the plain `page` and `page_size` keys are gone from the input and
      the sort paths resolve as they did. */
  lemma {:induction false} AliasesConsumeInput(g: Generator)
    ensures var r := ConsumeAliases(g, PageAliases);
            && Lookup(r.inputArgs, StrKey("page")).None?
            && Lookup(r.inputArgs, StrKey("page_size")).None?
            && Resolve(r.inputArgs, "paginator.sort") == Resolve(g.inputArgs, "paginator.sort")
            && Resolve(r.inputArgs, "paginator.sorts") == Resolve(g.inputArgs, "paginator.sorts")
  {
    AliasSteps(g);
    AliasesApart();
    PagingWords();
    var g1 := ConsumeAlias(g, "paginator.page", "page");
    var g2 := ConsumeAlias(g1, "page", "page");
    var g3 := ConsumeAlias(g2, "paginator.limit", "page_size");
    ConsumeAliasRemoves(g1, "page", "page", "page");
    ConsumeAliasRemoves(g2, "paginator.limit", "page_size", "page");
    ConsumeAliasRemoves(g3, "page_size", "page_size", "page");
    ConsumeAliasRemoves(g3, "page_size", "page_size", "page_size");
    SortPathsApart("paginator.page");
    SortPathsApart("page");
    SortPathsApart("paginator.limit");
    SortPathsApart("page_size");
    ConsumeAliasKeeps(g, "paginator.page", "page", "paginator.sort");
    ConsumeAliasKeeps(g1, "page", "page", "paginator.sort");
    ConsumeAliasKeeps(g2, "paginator.limit", "page_size", "paginator.sort");
    ConsumeAliasKeeps(g3, "page_size", "page_size", "paginator.sort");
    ConsumeAliasKeeps(g, "paginator.page", "page", "paginator.sorts");
    ConsumeAliasKeeps(g1, "page", "page", "paginator.sorts");
    ConsumeAliasKeeps(g2, "paginator.limit", "page_size", "paginator.sorts");
    ConsumeAliasKeeps(g3, "page_size", "page_size", "paginator.sorts");
  }

  // ---------------------------------------------------------------------------
  // handlePaginate: sorting
  // ---------------------------------------------------------------------------

  /** Whether `starts_with($token, ['+', '-'])` holds for a text. */
  predicate Signed(s: string)
  {
    |s| > 0 && (s[0] == '+' || s[0] == '-')
  }

  /** One token of the sort loop. A signed string names the field after the sign, ascending
      for `+` and descending for `-`. A negative integer reads as `-digits`; indexing it gives
      null, so it sorts descending. A raw expression whose text is signed cannot be indexed
      and throws. Every other token is skipped. */
  function SortToken(token: Val): (r: Result<Option<(Key, Val)>, Failure>)
    ensures r.Err? <==> token.Expr? && Signed(token.sql)
    ensures r.Ok? && r.value.Some? ==> r.value.value.1 in {Str("asc"), Str("desc")}
    ensures token.Str? ==> r.Ok? && (r.value.Some? <==> Signed(token.s))
  {
    match token
    case Str(s) =>
      if Signed(s) then Ok(Some((KeyOf(s[1..]), Str(if s[0] == '+' then "asc" else "desc"))))
      else Ok(None)
    case Int(i) =>
      if i < 0 then Ok(Some((KeyOf(NatToString(-i)), Str("desc")))) else Ok(None)
    case Expr(sql) =>
      if Signed(sql) then Err(ObjectUsedAsArray) else Ok(None)
    case _ => Ok(None)
  }

  /** A client writes a sort as the field behind a sign; the token gives back that field and
      direction. */
  lemma SortTokenRoundTrip(field: string, asc: bool)
    ensures SortToken(Str([if asc then '+' else '-'] + field))
         == Ok(Some((KeyOf(field), Str(if asc then "asc" else "desc"))))
  {
    assert ([if asc then '+' else '-'] + field)[1..] == field;
  }

  /** The field/direction pairs of a run of sort tokens, in order; the first token that
      throws stops the run. */
  function SortPairs(tokens: Entries): (r: Result<Entries, Failure>)
    ensures r.Ok? ==> |r.value| <= |tokens|
    ensures r.Ok? ==> forall i :: 0 <= i < |r.value| ==> r.value[i].1 in {Str("asc"), Str("desc")}
    decreases |tokens|
  {
    if |tokens| == 0 then Ok([])
    else match SortToken(tokens[0].1)
      case Err(e) => Err(e)
      case Ok(head) =>
        match SortPairs(tokens[1..])
        case Err(e) => Err(e)
        case Ok(rest) => Ok((if head.Some? then [head.value] else []) + rest)
  }

  /** The `$orders` array the sort loop builds: each pair assigned in turn, so a field named
      twice keeps its first position and its last direction. */
  function Orders(tokens: Entries): (r: Result<Entries, Failure>)
    ensures r.Ok? <==> SortPairs(tokens).Ok?
    ensures r.Ok? ==> DistinctKeys(r.value) && Keys(r.value) == Keys(SortPairs(tokens).value)
  {
    match SortPairs(tokens)
    case Ok(pairs) => PutAllDistinct([], pairs); Ok(PutAll([], pairs))
    case Err(e) => Err(e)
  }

  /** The sort loop fails exactly when some token is a raw expression with a signed text. */
  lemma OrdersFail(tokens: Entries)
    ensures Orders(tokens).Err? <==>
              exists i :: 0 <= i < |tokens| && tokens[i].1.Expr? && Signed(tokens[i].1.sql)
    ensures Orders(tokens).Err? ==> Orders(tokens).error == ObjectUsedAsArray
  {
    SortPairsFail(tokens);
  }

  /** The pairs loop stops at the first signed raw expression and at nothing else. */
  lemma {:induction false} SortPairsFail(tokens: Entries)
    ensures SortPairs(tokens).Err? <==>
              exists i :: 0 <= i < |tokens| && tokens[i].1.Expr? && Signed(tokens[i].1.sql)
    ensures SortPairs(tokens).Err? ==> SortPairs(tokens).error == ObjectUsedAsArray
    decreases |tokens|
  {
    if |tokens| > 0 {
      var rest := tokens[1..];
      SortPairsFail(rest);
      if SortToken(tokens[0].1).Err? {
        assert tokens[0].1.Expr? && Signed(tokens[0].1.sql);
      } else if SortPairs(rest).Err? {
        var i :| 0 <= i < |rest| && rest[i].1.Expr? && Signed(rest[i].1.sql);
        assert tokens[i + 1] == rest[i];
      } else {
        forall i | 0 <= i < |tokens|
          ensures !(tokens[i].1.Expr? && Signed(tokens[i].1.sql))
        {
          if i > 0 {
            assert tokens[i] == rest[i - 1];
          }
        }
      }
    }
  }

  /** Appending one token to a run appends its pair, if it has one. */
  lemma {:induction false} SortPairsSnoc(tokens: Entries, t: (Key, Val))
    requires SortPairs(tokens).Ok? && SortToken(t.1).Ok?
    ensures SortPairs(tokens + [t]).Ok?
    ensures SortPairs(tokens + [t]).value
         == SortPairs(tokens).value + (if SortToken(t.1).value.Some? then [SortToken(t.1).value.value] else [])
    decreases |tokens|
  {
    if |tokens| == 0 {
      assert [t][1..] == [];
    } else {
      assert (tokens + [t])[1..] == tokens[1..] + [t];
      SortPairsSnoc(tokens[1..], t);
    }
  }

  /** Assigning one more pair after a run of assignments. */
  lemma {:induction false} PutAllSnoc(a: Entries, ps: Entries, p: (Key, Val))
    ensures PutAll(a, ps + [p]) == Put(PutAll(a, ps), p.0, p.1)
    decreases |ps|
  {
    if |ps| == 0 {
      assert [p][1..] == [];
    } else {
      assert (ps + [p])[1..] == ps[1..] + [p];
      PutAllSnoc(Put(a, ps[0].0, ps[0].1), ps[1..], p);
    }
  }

  /** A later sort token for a field sets that field's direction in place, as an assignment
      to `$orders[$field]`; a token the loop skips changes nothing. */
  lemma {:induction false} LaterSortWins(tokens: Entries, t: (Key, Val))
    requires Orders(tokens).Ok? && SortToken(t.1).Ok?
    ensures Orders(tokens + [t]).Ok?
    ensures SortToken(t.1).value.None? ==> Orders(tokens + [t]) == Orders(tokens)
    ensures SortToken(t.1).value.Some? ==>
              Orders(tokens + [t]).value
                == Put(Orders(tokens).value, SortToken(t.1).value.value.0, SortToken(t.1).value.value.1)
  {
    SortPairsSnoc(tokens, t);
    var pairs := SortPairs(tokens).value;
    if SortToken(t.1).value.Some? {
      PutAllSnoc([], pairs, SortToken(t.1).value.value);
    } else {
      assert pairs + [] == pairs;
    }
  }

  /** `paginator.sort`, when present, is one sort token; the path is removed. */
  function TakeSort(input: Entries): (Val, Entries)
  {
    if Has(input, "paginator.sort") then
      (ArrayMerge(Arr([]), Arr([(IntKey(0), GetOr(input, "paginator.sort", Null))])),
       Forget(input, "paginator.sort"))
    else (Arr([]), input)
  }

  /** `paginator.sorts`, when present, is merged after the tokens so far (a value that is not
      an array turns the merge into null); the path is removed. */
  function TakeSorts(sorts: Val, input: Entries): (Val, Entries)
  {
    if Has(input, "paginator.sorts") then
      (ArrayMerge(sorts, GetOr(input, "paginator.sorts", Null)), Forget(input, "paginator.sorts"))
    else (sorts, input)
  }

  /** The sort tokens the request carries, and the input without the sort paths. */
  function RequestSorts(input: Entries): (Val, Entries)
  {
    var one := TakeSort(input);
    TakeSorts(one.0, one.1)
  }

  /** The truthy sort tokens of the request, or else the template's `order()` unfiltered. */
  function SortTokens(input: Entries, t: Template): (r: Entries)
    ensures r == Collect(t.order) || (|r| > 0 && forall i :: 0 <= i < |r| ==> Truthy(r[i].1))
  {
    var requested := FilterTruthy(Collect(RequestSorts(input).0));
    if |requested| == 0 then Collect(t.order) else requested
  }

  /** `handlePaginate()`: the alias loop, then the sort loop, whose `$orders` is appended as
      the `order` condition. */
  function HandlePaginate(g: Generator, t: Template): (r: Result<Generator, Failure>)
    ensures r.Err? <==> Orders(SortTokens(ConsumeAliases(g, PageAliases).inputArgs, t)).Err?
  {
    var paged := ConsumeAliases(g, PageAliases);
    match Orders(SortTokens(paged.inputArgs, t))
    case Ok(orders) =>
      Ok(Generator(AppendConditions(paged.conditions, [(StrKey("order"), Arr(orders))]),
                   RequestSorts(paged.inputArgs).1))
    case Err(e) => Err(e)
  }

  /** The conditions `handlePaginate` produces: those of the alias loop with the `order`
      condition appended. */
  lemma PaginateSteps(g: Generator, t: Template)
    requires HandlePaginate(g, t).Ok?
    ensures HandlePaginate(g, t).value.conditions
         == AppendConditions(ConsumeAliases(g, PageAliases).conditions,
              [(StrKey("order"), Arr(Orders(SortTokens(ConsumeAliases(g, PageAliases).inputArgs, t)).value))])
  {
  }

  /** `handlePaginate` sets `order` to the pairs of the request's sort tokens (or of the
      template's), keeping the keys of the conditions distinct. */
  lemma PaginateOrder(g: Generator, t: Template)
    requires DistinctKeys(g.conditions) && HandlePaginate(g, t).Ok?
    ensures DistinctKeys(HandlePaginate(g, t).value.conditions)
    ensures Lookup(HandlePaginate(g, t).value.conditions, StrKey("order"))
         == Some(Arr(Orders(SortTokens(ConsumeAliases(g, PageAliases).inputArgs, t)).value))
  {
    PaginateSteps(g, t);
    var paged := ConsumeAliases(g, PageAliases);
    AliasesKeepOthers(g, "order");
    AppendConditionsRoot(paged.conditions,
      [(StrKey("order"), Arr(Orders(SortTokens(paged.inputArgs, t)).value))], "order");
  }

  /** `handlePaginate` sets `page` and `page_size` by alias precedence: the plain request key
      over the `paginator.` path over the value the conditions held. */
  lemma PaginatePages(g: Generator, t: Template)
    requires DistinctKeys(g.conditions) && HandlePaginate(g, t).Ok?
    ensures Lookup(HandlePaginate(g, t).value.conditions, StrKey("page"))
         == PageValue(g.inputArgs, "page", "paginator.page", Lookup(g.conditions, StrKey("page")))
    ensures Lookup(HandlePaginate(g, t).value.conditions, StrKey("page_size"))
         == PageValue(g.inputArgs, "page_size", "paginator.limit", Lookup(g.conditions, StrKey("page_size")))
  {
    PaginateSteps(g, t);
    var paged := ConsumeAliases(g, PageAliases);
    var items := [(StrKey("order"), Arr(Orders(SortTokens(paged.inputArgs, t)).value))];
    AliasesKeepOthers(g, "order");
    AliasesSetPage(g);
    AliasesSetPageSize(g);
    AppendConditionsRoot(paged.conditions, items, "page");
    AppendConditionsRoot(paged.conditions, items, "page_size");
  }

  /** `handlePaginate` leaves every other root condition but `wheres` as it was. */
  lemma PaginateKeepsOthers(g: Generator, t: Template, s: string)
    requires DistinctKeys(g.conditions) && HandlePaginate(g, t).Ok?
    requires s !in {"wheres", "page", "page_size", "order"}
    ensures Lookup(HandlePaginate(g, t).value.conditions, StrKey(s)) == Lookup(g.conditions, StrKey(s))
  {
    PaginateSteps(g, t);
    var paged := ConsumeAliases(g, PageAliases);
    AliasesKeepOthers(g, s);
    AppendConditionsRoot(paged.conditions,
      [(StrKey("order"), Arr(Orders(SortTokens(paged.inputArgs, t)).value))], s);
  }

  /** The sort list the request spells out: the `paginator.sort` token, followed by the
      `paginator.sorts` list when there is one. */
  function SortList(one: Option<Val>, many: Option<Val>): Val
  {
    var first := if one.Some? then Arr([(IntKey(0), one.value)]) else Arr([]);
    if many.Some? then ArrayMerge(first, many.value) else first
  }

  /** `array_merge([], [$v])` is `[$v]`. */
  lemma MergeOne(v: Val)
    ensures MergeEntries([], [(IntKey(0), v)]) == [(IntKey(0), v)]
  {
    var es: Entries := [(IntKey(0), v)];
    assert [] + es == es;
    assert es[1..] == [];
    assert MergeFrom([], 0, es) == MergeFrom([] + [(IntKey(0), v)], 1, []);
  }

  /** Reading and removing the two sort paths yields the sort list of what they resolve to
      in the input. */
  lemma RequestSortsRead(input: Entries)
    ensures RequestSorts(input).0
         == SortList(Resolve(input, "paginator.sort"), Resolve(input, "paginator.sorts"))
  {
    var one := TakeSort(input);
    assert one.0 == if Resolve(input, "paginator.sort").Some?
                    then Arr([(IntKey(0), Resolve(input, "paginator.sort").value)]) else Arr([]) by {
      HasGetAgree(input, "paginator.sort", Null);
      MergeOne(GetOr(input, "paginator.sort", Null));
    }
    assert Resolve(one.1, "paginator.sorts") == Resolve(input, "paginator.sorts") by {
      PagingWords();
      DottedApart("paginator", "sort", "paginator", "sorts");
      if Has(input, "paginator.sort") {
        ResolveFrame(input, "paginator.sort", "paginator.sorts");
      }
    }
    HasGetAgree(one.1, "paginator.sorts", Null);
  }

  /** The tokens the sort loop reads are the truthy ones of the request's sort list; only when
      there is none does the template's `order()` count, unfiltered. */
  lemma SortSource(g: Generator, t: Template)
    ensures var requested := FilterTruthy(Collect(SortList(Resolve(g.inputArgs, "paginator.sort"),
                                                           Resolve(g.inputArgs, "paginator.sorts"))));
            SortTokens(ConsumeAliases(g, PageAliases).inputArgs, t)
              == if |requested| == 0 then Collect(t.order) else requested
  {
    AliasesConsumeInput(g);
    RequestSortsRead(ConsumeAliases(g, PageAliases).inputArgs);
  }

  /** When the request carries a truthy sort token, the template's `order()` has no effect. */
  lemma TemplateOrderIgnored(g: Generator, wheres: Val, order1: Val, order2: Val)
    requires |FilterTruthy(Collect(SortList(Resolve(g.inputArgs, "paginator.sort"),
                                            Resolve(g.inputArgs, "paginator.sorts"))))| > 0
    ensures HandlePaginate(g, Template(wheres, order1)) == HandlePaginate(g, Template(wheres, order2))
  {
    SortSource(g, Template(wheres, order1));
    SortSource(g, Template(wheres, order2));
  }

  /** A template whose `order()` is `'+id'`, with no sort in the request, sorts by `id`
      ascending. */
  lemma TemplateOrderExample()
    ensures Orders(Collect(Str("+id"))) == Ok([(StrKey("id"), Str("asc"))])
  {
    WordKey("id");
    assert "+id"[1..] == "id";
  }

  /** An `order()` that is a raw expression is collected through the object cast: its one
      property is its text, so `DB::raw('-id')` sorts by `id` descending. */
  lemma TemplateExpressionOrder()
    ensures Orders(Collect(Expr("-id"))) == Ok([(StrKey("id"), Str("desc"))])
  {
    ExampleTokens();
    var tokens := Collect(Expr("-id"));
    SortPairsHead(tokens);
    assert SortPairs(tokens[1..]) == Ok([]);
  }

  /** An `order()` that is a `When` is collected through the object cast: the condition,
      the success value and the fail value are all sort tokens, so both branches sort
      whatever the condition. */
  lemma TemplateWhenOrder(condition: bool)
    ensures Orders(Collect(WhenObj(PhpValues.When(condition, Str("+rank"), Str("-id")))))
         == Ok([(StrKey("rank"), Str("asc")), (StrKey("id"), Str("desc"))])
  {
    var w := PhpValues.When(condition, Str("+rank"), Str("-id"));
    var tokens := Collect(WhenObj(w));
    var flag := (PrivateKey(WhenClass, "when"), Bool(condition));
    var sorts := [(PrivateKey(WhenClass, "success"), Str("+rank")), (PrivateKey(WhenClass, "fail"), Str("-id"))];
    assert tokens == [flag] + sorts;
    SortPairsSkip(flag, sorts);
    RankThenId(sorts[0].0, sorts[1].0);
    PutSecond(StrKey("rank"), Str("asc"), StrKey("id"), Str("desc"));
  }

  /** A token the loop skips adds no pair. */
  lemma SortPairsSkip(t: (Key, Val), rest: Entries)
    requires SortToken(t.1) == Ok(None)
    ensures SortPairs([t] + rest) == SortPairs(rest)
  {
    var ts := [t] + rest;
    assert ts[0] == t && ts[1..] == rest;
    if SortPairs(rest).Ok? {
      SortPairsHead(ts);
      assert [] + SortPairs(rest).value == SortPairs(rest).value;
    }
  }

  /** `+rank` then `-id`, under any keys, give `rank` ascending then `id` descending. */
  lemma RankThenId(k1: Key, k2: Key)
    ensures SortPairs([(k1, Str("+rank")), (k2, Str("-id"))])
         == Ok([(StrKey("rank"), Str("asc")), (StrKey("id"), Str("desc"))])
  {
    ExampleTokens();
    var tokens := [(k1, Str("+rank")), (k2, Str("-id"))];
    var last := [(k2, Str("-id"))];
    assert tokens[1..] == last;
    assert last[1..] == [];
    assert SortPairs(last[1..]) == Ok([]);
    assert SortToken(last[0].1) == Ok(Some((StrKey("id"), Str("desc"))));
    SortPairsHead(last);
    var x := (StrKey("id"), Str("desc"));
    assert SortPairs(last).value == [x] + [];
    assert SortToken(tokens[0].1) == Ok(Some((StrKey("rank"), Str("asc"))));
    SortPairsHead(tokens);
    var y := (StrKey("rank"), Str("asc"));
    assert SortPairs(tokens).Ok?;
    assert SortPairs(tokens).value == [y, x];
  }

  /** One step of the pairs loop: the first token's pair, if any, before the rest. */
  lemma SortPairsHead(tokens: Entries)
    requires |tokens| > 0
    ensures SortToken(tokens[0].1).Ok? && SortPairs(tokens[1..]).Ok? ==>
              SortPairs(tokens)
                == Ok((if SortToken(tokens[0].1).value.Some? then [SortToken(tokens[0].1).value.value] else [])
                      + SortPairs(tokens[1..]).value)
  {
  }

  /** The two tokens of the sorting test read as `rank` ascending and `id` descending. */
  lemma ExampleTokens()
    ensures SortToken(Str("+rank")) == Ok(Some((StrKey("rank"), Str("asc"))))
    ensures SortToken(Str("-id")) == Ok(Some((StrKey("id"), Str("desc"))))
  {
    SortTokenRoundTrip("rank", true);
    SortTokenRoundTrip("id", false);
    assert ['+'] + "rank" == "+rank";
    assert ['-'] + "id" == "-id";
    WordKey("rank");
    WordKey("id");
  }

  /** The request sorts `['+rank', '-id']` give `rank` ascending, then `id` descending. */
  lemma RequestSortsExample()
    ensures Orders([(IntKey(0), Str("+rank")), (IntKey(1), Str("-id"))])
         == Ok([(StrKey("rank"), Str("asc")), (StrKey("id"), Str("desc"))])
  {
    var first := [(IntKey(0), Str("+rank"))];
    var second := (IntKey(1), Str("-id"));
    FirstExampleToken();
    LaterSortWins(first, second);
    PutSecond(StrKey("rank"), Str("asc"), StrKey("id"), Str("desc"));
  }

  /** Assigning a second key to a one-entry array appends it. */
  lemma PutSecond(k1: Key, v1: Val, k2: Key, v2: Val)
    requires k1 != k2
    ensures Put([(k1, v1)], k2, v2) == [(k1, v1), (k2, v2)]
  {
    assert k2 !in Keys([(k1, v1)]);
  }

  /** The first token alone sorts by `rank` ascending. */
  lemma FirstExampleToken()
    ensures SortToken(Str("-id")) == Ok(Some((StrKey("id"), Str("desc"))))
    ensures Orders([(IntKey(0), Str("+rank"))]) == Ok([(StrKey("rank"), Str("asc"))])
  {
    ExampleTokens();
    assert [(IntKey(0), Str("+rank"))][1..] == [];
  }

  // ---------------------------------------------------------------------------
  // generateWhereKeyValue and getConditions
  // ---------------------------------------------------------------------------

  /** A condition pair, unless its value is null or `''`, which drop the condition. */
  function Keep(k: Key, v: Val): Entries
  {
    if v.Null? || v == Str("") then [] else [(k, v)]
  }

  /** `generateWhereKeyValue($item, $key)`: the pairs one `wheres` entry contributes. A `When`
      is resolved first. A positional closure, raw expression or scope passes through. A
      positional field reads its value from the input; a keyed condition carries its own
      value (a closure is called for it). A field that is not a string, integer or boolean
      cannot be an array key, so PHP drops the pair. */
  function Bind(input: Entries, key: Key, entry: Val): (r: Entries)
    ensures |r| <= 1
    ensures forall i :: 0 <= i < |r| ==> r[i].1 != Null && r[i].1 != Str("")
    ensures var item := if entry.WhenObj? then Whens.Result(entry.when, false) else entry;
            key.IntKey? && (item.Closure? || item.Expr? || item.ScopeObj?) ==> r == [(key, item)]
    ensures var item := if entry.WhenObj? then Whens.Result(entry.when, false) else entry;
            key.StrKey? ==> (r == [] <==> Invoke(item).Null? || Invoke(item) == Str(""))
    ensures var item := if entry.WhenObj? then Whens.Result(entry.when, false) else entry;
            key.StrKey? && r != [] ==> r == [(key, Invoke(item))]
  {
    var item := if entry.WhenObj? then Whens.Result(entry.when, false) else entry;
    if key.IntKey? && (item.Closure? || item.Expr? || item.ScopeObj?) then [(key, item)]
    else if key.IntKey? then
      match item
      case Str(f) => Keep(KeyOf(f), GetOr(input, f, Null))
      case Int(i) => Keep(IntKey(i), Get(input, IntKey(i)))
      case Bool(b) => Keep(IntKey(if b then 1 else 0), Get(input, IntKey(if b then 1 else 0)))
      case _ => []
    else Keep(key, Invoke(item))
  }

  /** A positional field is bound exactly when its input is valid, and then to that input:
      the same test `isVaildInput` makes. */
  lemma PositionalFieldIsValidInput(g: Generator, i: int, field: string)
    ensures Bind(g.inputArgs, IntKey(i), Str(field))
         == if IsValidInput(g, field) then [(KeyOf(field), GetInputArgs(g, field))] else []
  {
    HasGetAgree(g.inputArgs, field, Null);
  }

  /** A `When` entry binds as the branch its condition chose; a chosen `When` is not resolved
      again, so it is dropped as a field and kept as a keyed value. */
  lemma WhenEntryBindsChoice(input: Entries, key: Key, w: When)
    ensures !Whens.Chosen(w).WhenObj? ==> Bind(input, key, WhenObj(w)) == Bind(input, key, Whens.Chosen(w))
    ensures Whens.Chosen(w).WhenObj? ==>
              Bind(input, key, WhenObj(w)) == if key.IntKey? then [] else [(key, Whens.Chosen(w))]
  {
  }

  /** The pairs of every entry, in order. */
  function Bindings(input: Entries, wheres: Entries): (r: Entries)
    ensures forall i :: 0 <= i < |r| ==> r[i].1 != Null && r[i].1 != Str("")
    decreases |wheres|
  {
    if |wheres| == 0 then []
    else Bind(input, wheres[0].0, wheres[0].1) + Bindings(input, wheres[1..])
  }

  /** `mapWithKeys(generateWhereKeyValue)`: the pairs assigned in turn into a new array. */
  function BindAll(input: Entries, wheres: Entries): (r: Entries)
    ensures DistinctKeys(r)
  {
    PutAllDistinct([], Bindings(input, wheres));
    PutAll([], Bindings(input, wheres))
  }

  /** The last pair for a key wins, and no bound condition is null or `''`. */
  lemma BindAllLookup(input: Entries, wheres: Entries, k: Key)
    ensures Lookup(BindAll(input, wheres), k) == LookupLast(Bindings(input, wheres), k)
    ensures Lookup(BindAll(input, wheres), k).Some? ==>
              Lookup(BindAll(input, wheres), k).value != Null && Lookup(BindAll(input, wheres), k).value != Str("")
  {
    PutAllLookup([], Bindings(input, wheres), k);
    LastIsBound(Bindings(input, wheres), k);
  }

  /** The last value for a key in a list of pairs is one of its values. */
  lemma {:induction false} LastIsBound(ps: Entries, k: Key)
    ensures LookupLast(ps, k).Some? ==> exists i :: 0 <= i < |ps| && ps[i] == (k, LookupLast(ps, k).value)
    decreases |ps|
  {
    if |ps| > 0 {
      LastIsBound(ps[..|ps| - 1], k);
      if ps[|ps| - 1].0 != k && LookupLast(ps, k).Some? {
        var i :| 0 <= i < |ps[..|ps| - 1]| && ps[..|ps| - 1][i] == (k, LookupLast(ps, k).value);
        assert ps[i] == ps[..|ps| - 1][i];
      }
    }
  }

  /** `getConditions($args)`: the input is set and flattened, paging and sorting are applied,
      the template's `wheres()` are merged after the accumulated ones, and every truthy entry
      is bound against the input; the bound conditions replace `wheres` as a collection. */
  function GetConditions(g: Generator, t: Template, args: Entries): (r: Result<Generator, Failure>)
    ensures r.Err? <==> HandlePaginate(HandleInputArgs(Generator(g.conditions, args)), t).Err?
    ensures r.Ok? ==> Lookup(r.value.conditions, StrKey("wheres")).Some?
                      && Lookup(r.value.conditions, StrKey("wheres")).value.Coll?
  {
    var flattened := HandleInputArgs(Generator(g.conditions, args));
    match HandlePaginate(flattened, t)
    case Err(e) => Err(e)
    case Ok(paged) =>
      var wheres := ArrayMerge(Get(paged.conditions, StrKey("wheres")), t.wheres);
      var bound := BindAll(paged.inputArgs, FilterTruthy(Collect(wheres)));
      LookupPut(paged.conditions, StrKey("wheres"), Coll(bound), StrKey("wheres"));
      Ok(paged.(conditions := Put(paged.conditions, StrKey("wheres"), Coll(bound))))
  }

  /** Without a non-empty `more` array the input is the arguments as given. */
  lemma NoMoreKeepsArgs(g: Generator, args: Entries)
    requires !(GetOr(args, "more", Null).Arr? && |GetOr(args, "more", Null).entries| > 0)
    ensures HandleInputArgs(Generator(g.conditions, args)).inputArgs == args
  {
  }

  /** `getConditions` returns the paging and sorting conditions `handlePaginate` chose for the
      flattened input, and the accumulated and template `wheres` bound against the input that
      is left. */
  lemma GetConditionsParts(g: Generator, t: Template, args: Entries)
    requires DistinctKeys(g.conditions) && GetConditions(g, t, args).Ok?
    ensures var flattened := HandleInputArgs(Generator(g.conditions, args));
            var paged := HandlePaginate(flattened, t).value;
            var c := GetConditions(g, t, args).value.conditions;
            && DistinctKeys(c)
            && Lookup(c, StrKey("order"))
                 == Some(Arr(Orders(SortTokens(ConsumeAliases(flattened, PageAliases).inputArgs, t)).value))
            && Lookup(c, StrKey("page"))
                 == PageValue(flattened.inputArgs, "page", "paginator.page", Lookup(g.conditions, StrKey("page")))
            && Lookup(c, StrKey("page_size"))
                 == PageValue(flattened.inputArgs, "page_size", "paginator.limit", Lookup(g.conditions, StrKey("page_size")))
            && Lookup(c, StrKey("wheres"))
                 == Some(Coll(BindAll(paged.inputArgs,
                      FilterTruthy(Collect(ArrayMerge(Get(paged.conditions, StrKey("wheres")), t.wheres))))))
  {
    var flattened := HandleInputArgs(Generator(g.conditions, args));
    var paged := HandlePaginate(flattened, t).value;
    var bound := BindAll(paged.inputArgs,
                   FilterTruthy(Collect(ArrayMerge(Get(paged.conditions, StrKey("wheres")), t.wheres))));
    assert GetConditions(g, t, args).value.conditions == Put(paged.conditions, StrKey("wheres"), Coll(bound));
    PaginateOrder(flattened, t);
    PaginatePages(flattened, t);
    PutDistinct(paged.conditions, StrKey("wheres"), Coll(bound));
    LookupPut(paged.conditions, StrKey("wheres"), Coll(bound), StrKey("order"));
    LookupPut(paged.conditions, StrKey("wheres"), Coll(bound), StrKey("page"));
    LookupPut(paged.conditions, StrKey("wheres"), Coll(bound), StrKey("page_size"));
    LookupPut(paged.conditions, StrKey("wheres"), Coll(bound), StrKey("wheres"));
  }

  /** With no sort in the request, a binder whose `order()` is `'+id'` sorts by `id`
      ascending. */
  lemma OrderFromTemplate(wheres: Val)
    ensures var r := GetConditions(Initial(), Template(wheres, Str("+id")), []);
            r.Ok? && Lookup(r.value.conditions, StrKey("order")) == Some(Arr([(StrKey("id"), Str("asc"))]))
  {
    var g := Initial();
    var t := Template(wheres, Str("+id"));
    TemplateTokens(wheres);
    TemplateOrderExample();
    GetConditionsParts(g, t, []);
  }

  /** With an empty request the sort loop reads the template's `+id`. */
  lemma TemplateTokens(wheres: Val)
    ensures var flattened := HandleInputArgs(Generator(Initial().conditions, []));
            SortTokens(ConsumeAliases(flattened, PageAliases).inputArgs, Template(wheres, Str("+id")))
              == Collect(Str("+id"))
  {
    var flattened := HandleInputArgs(Generator(Initial().conditions, []));
    GetOrEmpty("more", Null);
    NoMoreKeepsArgs(Initial(), []);
    var none: Entries := [];
    assert FilterTruthy(Collect(SortList(None, None))) == none by {
      assert SortList(None, None) == Arr([]);
    }
    ResolveEmpty("paginator.sort");
    ResolveEmpty("paginator.sorts");
    SortSource(flattened, Template(wheres, Str("+id")));
  }

}

=== FILE: dot_path.dfy ===
/** Laravel's dot-notation array helpers (`array_has`, `array_get`, `array_forget`), which the
    input binder uses to read and consume request keys such as `paginator.sort`. */
module DotPath {
  import opened Wrappers
  import opened PhpStrings
  import opened PhpValues

  /** Follow `segments` down through nested arrays and collections. */
  function Walk(v: Val, segments: seq<string>): Option<Val>
    decreases |segments|
  {
    if |segments| == 0 then Some(v)
    else if Accessible(v) && Lookup(EntriesOf(v), KeyOf(segments[0])).Some? then
      Walk(Lookup(EntriesOf(v), KeyOf(segments[0])).value, segments[1..])
    else None
  }

  /** Where `path` leads in `a`: the literal key first, then the dot-separated walk. */
  function Resolve(a: Entries, path: string): Option<Val>
  {
    if Lookup(a, KeyOf(path)).Some? then Lookup(a, KeyOf(path))
    else Walk(Arr(a), Explode(path, '.'))
  }

  /** `array_has($a, $path)` as Laravel writes it: false for an empty array; true when the
      literal key exists; otherwise every dot segment must exist in turn. */
  predicate Has(a: Entries, path: string)
  {
    if |a| == 0 then false
    else if Lookup(a, KeyOf(path)).Some? then true
    else Walk(Arr(a), Explode(path, '.')).Some?
  }

  /** `array_get($a, $path, $default)` as Laravel writes it: the literal key when it exists;
      the default when the path has no dot; otherwise the dot walk, or the default. */
  function GetOr(a: Entries, path: string, default: Val): Val
  {
    if Lookup(a, KeyOf(path)).Some? then Lookup(a, KeyOf(path)).value
    else if '.' !in path then default
    else Walk(Arr(a), Explode(path, '.')).GetOr(default)
  }

  /** `array_has` and `array_get` agree with one reading of the path: `array_has` holds
      exactly when it resolves, and `array_get` returns what it resolves to. */
  lemma HasGetAgree(a: Entries, path: string, default: Val)
    ensures Has(a, path) <==> Resolve(a, path).Some?
    ensures GetOr(a, path, default) == Resolve(a, path).GetOr(default)
  {
    var parts := Explode(path, '.');
    if Lookup(a, KeyOf(path)).None? {
      if '.' !in path {
        assert parts == [path];
        assert parts[1..] == [];
      }
      if |a| == 0 {
        assert Lookup(a, KeyOf(parts[0])).None?;
      }
    }
  }

  /** Nothing resolves in an empty array. */
  lemma ResolveEmpty(path: string)
    ensures Resolve([], path).None?
  {
    var empty: Entries := [];
    var parts := Explode(path, '.');
    assert Lookup(empty, KeyOf(path)).None?;
    assert Lookup(EntriesOf(Arr(empty)), KeyOf(parts[0])).None?;
    assert Walk(Arr(empty), parts).None?;
  }

  /** `array_get` on an empty array gives the default. */
  lemma GetOrEmpty(path: string, default: Val)
    ensures GetOr([], path, default) == default
  {
    ResolveEmpty(path);
    HasGetAgree([], path, default);
  }

  /** `array_forget` for a path already split at dots: descend while the segment holds a
      non-null array, then unset the last segment. */
  function ForgetParts(a: Entries, parts: seq<string>): Entries
    requires |parts| >= 1
    decreases |parts|
  {
    if |parts| == 1 then Remove(a, KeyOf(parts[0]))
    else
      match Lookup(a, KeyOf(parts[0]))
      case Some(Arr(inner)) => Put(a, KeyOf(parts[0]), Arr(ForgetParts(inner, parts[1..])))
      case _ => a
  }

  /** `array_forget($a, $path)`: unset the literal key when it exists, the dotted path
      otherwise. */
  function Forget(a: Entries, path: string): Entries
  {
    if Lookup(a, KeyOf(path)).Some? then Remove(a, KeyOf(path))
    else ForgetParts(a, Explode(path, '.'))
  }

  /** `array_forget` only touches the entry the path starts from: any other top-level key
      reads as before. */
  lemma ForgetFrame(a: Entries, path: string, k: Key)
    requires k != KeyOf(path) && k != KeyOf(FirstSegment(path, '.'))
    ensures Lookup(Forget(a, path), k) == Lookup(a, k)
  {
    var parts := Explode(path, '.');
    if Lookup(a, KeyOf(path)).Some? {
      LookupRemove(a, KeyOf(path), k);
    } else if |parts| == 1 {
      LookupRemove(a, KeyOf(parts[0]), k);
    } else {
      match Lookup(a, KeyOf(parts[0]))
      case Some(Arr(inner)) =>
        LookupPut(a, KeyOf(parts[0]), Arr(ForgetParts(inner, parts[1..])), k);
      case _ =>
    }
  }

  /** Forgetting a path whose every step is a nested array removes it: afterwards the walk
      no longer finds it. */
  lemma {:induction false} ForgetPartsRemoves(a: Entries, parts: seq<string>)
    requires |parts| >= 1
    requires NestedArrays(a, parts)
    ensures Walk(Arr(ForgetParts(a, parts)), parts).None?
    decreases |parts|
  {
    var k := KeyOf(parts[0]);
    if |parts| == 1 {
      LookupRemove(a, k, k);
    } else {
      var inner := Lookup(a, k).value.entries;
      var r := ForgetParts(a, parts);
      ForgetPartsRemoves(inner, parts[1..]);
      LookupPut(a, k, Arr(ForgetParts(inner, parts[1..])), k);
      assert Lookup(EntriesOf(Arr(r)), k) == Some(Arr(ForgetParts(inner, parts[1..])));
    }
  }

  /** Every segment but the last of `parts` names a nested array in `a`. */
  predicate NestedArrays(a: Entries, parts: seq<string>)
    decreases |parts|
  {
    |parts| <= 1 ||
    match Lookup(a, KeyOf(parts[0]))
    case Some(Arr(inner)) => NestedArrays(inner, parts[1..])
    case _ => false
  }

  /** For a key without a dot, `array_has` and `array_get` read that one key. */
  lemma PlainKey(a: Entries, key: string, default: Val)
    requires '.' !in key
    ensures Has(a, key) <==> Lookup(a, KeyOf(key)).Some?
    ensures GetOr(a, key, default) == Lookup(a, KeyOf(key)).GetOr(default)
  {
    var parts := Explode(key, '.');
    assert parts == [key];
    assert parts[1..] == [];
  }

  /** For a key without a dot, `array_forget` is `unset`. */
  lemma PlainForget(a: Entries, key: string)
    requires '.' !in key
    ensures Forget(a, key) == Remove(a, KeyOf(key))
  {
    var parts := Explode(key, '.');
    assert parts == [key];
  }

  /** Two split paths part ways: at some segment both have, their keys differ. */
  predicate Diverge(p: seq<string>, q: seq<string>)
    decreases |p|
  {
    |p| > 0 && |q| > 0 && (KeyOf(p[0]) != KeyOf(q[0]) || Diverge(p[1..], q[1..]))
  }

  /** Forgetting one path leaves every path that parts ways with it as it was. */
  lemma {:induction false} ForgetPartsFrame(a: Entries, p: seq<string>, q: seq<string>)
    requires |p| >= 1 && Diverge(p, q)
    ensures Walk(Arr(ForgetParts(a, p)), q) == Walk(Arr(a), q)
    decreases |p|
  {
    var k := KeyOf(p[0]);
    var kq := KeyOf(q[0]);
    if |p| == 1 {
      LookupRemove(a, k, kq);
      WalkSameFirst(ForgetParts(a, p), a, q);
    } else {
      match Lookup(a, k)
      case Some(Arr(inner)) =>
        var forgotten := Arr(ForgetParts(inner, p[1..]));
        LookupPut(a, k, forgotten, kq);
        if k == kq {
          ForgetPartsFrame(inner, p[1..], q[1..]);
          WalkStep(ForgetParts(a, p), q, forgotten);
          WalkStep(a, q, Arr(inner));
        } else {
          WalkSameFirst(ForgetParts(a, p), a, q);
        }
      case _ =>
    }
  }

  /** Two arrays that agree on a path's first key agree on the whole path. */
  lemma WalkSameFirst(a: Entries, b: Entries, q: seq<string>)
    requires |q| >= 1 && Lookup(a, KeyOf(q[0])) == Lookup(b, KeyOf(q[0]))
    ensures Walk(Arr(a), q) == Walk(Arr(b), q)
  {
  }

  /** A walk through an array goes on from the entry under the first key. */
  lemma WalkStep(a: Entries, q: seq<string>, next: Val)
    requires |q| >= 1 && Lookup(a, KeyOf(q[0])) == Some(next)
    ensures Walk(Arr(a), q) == Walk(next, q[1..])
  {
  }

  /** Two paths that touch different entries: neither literal key is the other path or its
      first segment, and the split paths part ways. */
  predicate Apart(f: string, p: string)
  {
    && KeyOf(p) != KeyOf(f) && KeyOf(p) != KeyOf(FirstSegment(f, '.'))
    && KeyOf(f) != KeyOf(Explode(p, '.')[0])
    && Diverge(Explode(f, '.'), Explode(p, '.'))
  }

  /** `array_forget($a, $f)` does not change where another path `p` leads when the two are
      apart. */
  lemma ResolveFrame(a: Entries, f: string, p: string)
    requires Apart(f, p)
    ensures Resolve(Forget(a, f), p) == Resolve(a, p)
  {
    var parts := Explode(p, '.');
    var forgotten := Forget(a, f);
    ForgetFrame(a, f, KeyOf(p));
    assert Lookup(forgotten, KeyOf(p)) == Lookup(a, KeyOf(p));
    if Lookup(a, KeyOf(p)).None? {
      if Lookup(a, KeyOf(f)).Some? {
        assert forgotten == Remove(a, KeyOf(f));
        LookupRemove(a, KeyOf(f), KeyOf(parts[0]));
        WalkSameFirst(forgotten, a, parts);
      } else {
        assert forgotten == ForgetParts(a, Explode(f, '.'));
        ForgetPartsFrame(a, Explode(f, '.'), parts);
      }
      assert Walk(Arr(forgotten), parts) == Walk(Arr(a), parts);
    }
  }

  /** A single path segment that PHP keeps as a string key: non-empty, free of dots, and not
      starting like a number. */
  predicate Word(s: string)
  {
    |s| > 0 && !IsDigit(s[0]) && s[0] != '-' && '.' !in s
  }

  /** The path `a.b`. */
  function Dotted(a: string, b: string): string
  {
    a + "." + b
  }

  lemma DottedFacts(a: string, b: string)
    requires Word(a) && Word(b)
    ensures '.' in Dotted(a, b)
    ensures KeyOf(Dotted(a, b)) == StrKey(Dotted(a, b))
    ensures FirstSegment(Dotted(a, b), '.') == a
    ensures Explode(Dotted(a, b), '.') == [a, b]
  {
    assert Dotted(a, b) == a + ['.'] + b;
    assert Dotted(a, b)[|a|] == '.';
    assert Dotted(a, b)[0] == a[0];
    WordKey(Dotted(a, b));
    ExplodeTwo(a, b, '.');
  }

  lemma WordFacts(w: string)
    requires Word(w)
    ensures KeyOf(w) == StrKey(w) && FirstSegment(w, '.') == w && Explode(w, '.') == [w]
  {
    WordKey(w);
  }

  /** Two different words are apart. */
  lemma WordsApart(w: string, v: string)
    requires Word(w) && Word(v) && w != v
    ensures Apart(w, v)
  {
    WordFacts(w);
    WordFacts(v);
  }

  /** A word and a dotted path that starts elsewhere are apart, in both directions. */
  lemma WordDottedApart(w: string, a: string, b: string)
    requires Word(w) && Word(a) && Word(b) && w != a
    ensures Apart(w, Dotted(a, b)) && Apart(Dotted(a, b), w)
  {
    WordFacts(w);
    WordFacts(a);
    DottedFacts(a, b);
  }

  /** Two different dotted paths are apart. */
  lemma DottedApart(a1: string, b1: string, a2: string, b2: string)
    requires Word(a1) && Word(b1) && Word(a2) && Word(b2) && (a1 != a2 || b1 != b2)
    ensures Apart(Dotted(a1, b1), Dotted(a2, b2))
  {
    WordFacts(a1);
    WordFacts(a2);
    WordFacts(b1);
    WordFacts(b2);
    DottedFacts(a1, b1);
    DottedFacts(a2, b2);
    assert Explode(Dotted(a1, b1), '.')[1..] == [b1];
    assert Explode(Dotted(a2, b2), '.')[1..] == [b2];
  }
}

=== FILE: failures.dfy ===
/** The ways compiling a conditions array can fail. Each stands for an exception or a PHP
    `Error` the source raises; PHP notices and warnings are not failures. */
module Failures {

  datatype Failure =
    /** `When::make()` called without a condition. */
    | TooFewArguments
    /** A model scope that is not defined on the searched model (the source's
        `InternalErrorException`). */
    | ScopeNotFound(className: string, scopeMethod: string)
    /** The normaliser's "malformed conditions" exception. */
    | MalformedConditions
    /** `unset($v['mix'])` on a string operator map ("Cannot unset string offsets"). */
    | CannotUnsetOffset(field: string)
    /** Array access (`$v['field']`, `$v[0]`) on an object that does not allow it. */
    | ObjectUsedAsArray
    /** Calling a callback that was left null. */
    | NotCallable
    /** String concatenation with a value that has no string form. */
    | NoStringConversion
}

=== FILE: list_search.dfy ===
/** The list entry points of the search trait: keyword search, ordering, offset and limit,
    the assembled query (`getListQuery`), the paginated or plain list (`getList`) and the
    count (`getCount`). */
module ListSearch {
  import opened Wrappers
  import opened PhpStrings
  import opened PhpValues
  import opened DotPath
  import opened Failures
  import opened Query
  import opened WhereSearch

  /** The value under the first `key` present in its array, trying the pairs in order; the
      default when none is present. The reference reading of a chain of `has ? get :`
      fallbacks. */
  function FirstPresent(sources: seq<(Entries, string)>, default: Val): Val
  {
    if |sources| == 0 then default
    else match Lookup(sources[0].0, StrKey(sources[0].1))
      case Some(v) => v
      case None => FirstPresent(sources[1..], default)
  }

  /** `$keyword` of `simpleLikeSearch`: the first of `keyword`, `search`, `key` present in
      the conditions (even when empty), or the empty string. */
  function Keyword(conditions: Entries): (r: Val)
    ensures !Has(conditions, "keyword") && !Has(conditions, "search") && !Has(conditions, "key") ==> r == Str("")
  {
    if Has(conditions, "keyword") then GetOr(conditions, "keyword", Str(""))
    else if Has(conditions, "search") then GetOr(conditions, "search", Str(""))
    else if Has(conditions, "key") then GetOr(conditions, "key", Str(""))
    else Str("")
  }

  /** `simpleLikeSearch`: one `searchKeyword` scope call when the keyword is truthy. */
  function SimpleLikeSearch(conditions: Entries): (r: seq<Op>)
    ensures |r| <= 1
    ensures r != [] <==> Truthy(Keyword(conditions))
    ensures forall o :: o in r ==> o == SearchKeyword(Keyword(conditions))
  {
    var keyword := Keyword(conditions);
    if Truthy(keyword) then [SearchKeyword(keyword)] else []
  }

  /** The keyword is taken from the first of `keyword`, `search`, `key` that is present, so
      a present but empty `keyword` hides a `search` entry. */
  lemma {:induction false} KeywordPrecedence(conditions: Entries)
    ensures Keyword(conditions)
         == FirstPresent([(conditions, "keyword"), (conditions, "search"), (conditions, "key")], Str(""))
  {
    WordKey("keyword");
    WordKey("search");
    WordKey("key");
    PlainKey(conditions, "keyword", Str(""));
    PlainKey(conditions, "search", Str(""));
    PlainKey(conditions, "key", Str(""));
    var s2 := [(conditions, "key")];
    var s1 := [(conditions, "search")] + s2;
    var s0 := [(conditions, "keyword")] + s1;
    assert s2[1..] == [] && s1[1..] == s2 && s0[1..] == s1;
    assert FirstPresent(s2, Str("")) == Lookup(conditions, StrKey("key")).GetOr(Str(""));
    assert s0 == [(conditions, "keyword"), (conditions, "search"), (conditions, "key")];
  }

  /** `foreach ($order as $field => $direction) $query->orderBy($field, $direction)`. */
  function OrderCalls(pairs: Entries): (r: seq<Op>)
    ensures |r| == |pairs|
    ensures forall i :: 0 <= i < |pairs| ==> r[i] == OrderBy(pairs[i].0, pairs[i].1)
  {
    if |pairs| == 0 then [] else [OrderBy(pairs[0].0, pairs[0].1)] + OrderCalls(pairs[1..])
  }

  /** `$conditions['order']` when set and not null, the empty array otherwise. */
  function OrderValue(conditions: Entries): Val
  {
    match Lookup(conditions, StrKey("order"))
    case Some(v) => if v.Null? then Arr([]) else v
    case None => Arr([])
  }

  /** `orderSearch`: a string order is one column sorted by `direction` (descending unless
      given); an array or collection order lists column => direction pairs; any other
      value orders nothing. */
  function OrderSearch(conditions: Entries): (r: seq<Op>)
    ensures OrderValue(conditions).Str? ==>
              r == [OrderBy(KeyOf(OrderValue(conditions).s), GetOr(conditions, "direction", Str("desc")))]
    ensures Accessible(OrderValue(conditions)) ==>
              |r| == |EntriesOf(OrderValue(conditions))| &&
              forall i :: 0 <= i < |r| ==>
                r[i] == OrderBy(EntriesOf(OrderValue(conditions))[i].0, EntriesOf(OrderValue(conditions))[i].1)
    ensures !OrderValue(conditions).Str? && !Accessible(OrderValue(conditions)) ==> r == []
    ensures forall o :: o in r ==> o.OrderBy?
  {
    var order := OrderValue(conditions);
    if order.Str? then OrderCalls([(KeyOf(order.s), GetOr(conditions, "direction", Str("desc")))])
    else OrderCalls(EntriesOf(order))
  }

  /** `offsetSearch` as written: with `limit > 0` it skips `(int)$offset` and takes
      `(int)$limit` rows, where `$offset` reads the misspelt key `offiset` whenever
      `offset` is present. */
  function OffsetSearch(conditions: Entries): (r: seq<Op>)
    ensures r == [] || (|r| == 2 && r[0].Skip? && r[1] == Take(IntCast(Get(conditions, StrKey("limit")))))
    ensures r != [] <==> Has(conditions, "limit") && GreaterThanZero(Get(conditions, StrKey("limit")))
  {
    PlainKey(conditions, "limit", Null);
    var offset := if Has(conditions, "offset") then Get(conditions, StrKey("offiset")) else Int(0);
    var limit := if Has(conditions, "limit") then Get(conditions, StrKey("limit")) else Int(0);
    if GreaterThanZero(limit) then [Skip(IntCast(offset)), Take(IntCast(limit))] else []
  }

  /** The `offset` entry's value never matters: only `offiset` is read, and only when
      `offset` is present. The limit is honoured. */
  lemma {:induction false} OffsetIsNotHonoured(conditions: Entries, v1: Val, v2: Val)
    ensures OffsetSearch(Put(conditions, StrKey("offset"), v1))
         == OffsetSearch(Put(conditions, StrKey("offset"), v2))
    ensures OffsetSearch(conditions) != [] ==>
              OffsetSearch(conditions)[1] == Take(IntCast(Get(conditions, StrKey("limit"))))
  {
    OffsetUnderPut(conditions, v1);
    OffsetUnderPut(conditions, v2);
  }

  /** Without an `offiset` entry every skip is zero, whatever `offset` holds. */
  lemma OffsetSkipsNothing(conditions: Entries)
    requires StrKey("offiset") !in Keys(conditions)
    ensures forall o :: o in OffsetSearch(conditions) && o.Skip? ==> o.count == 0
  {
    assert Get(conditions, StrKey("offiset")) == Null;
  }

  /** Assigning `offset` changes neither the `offiset` read nor the limit. */
  lemma OffsetUnderPut(conditions: Entries, v: Val)
    ensures Has(Put(conditions, StrKey("offset"), v), "offset")
    ensures Get(Put(conditions, StrKey("offset"), v), StrKey("offiset")) == Get(conditions, StrKey("offiset"))
    ensures Has(Put(conditions, StrKey("offset"), v), "limit") <==> Has(conditions, "limit")
    ensures Get(Put(conditions, StrKey("offset"), v), StrKey("limit")) == Get(conditions, StrKey("limit"))
  {
    WordKey("offset");
    WordKey("limit");
    var c := Put(conditions, StrKey("offset"), v);
    PlainKey(c, "offset", Null);
    PlainKey(c, "limit", Null);
    PlainKey(conditions, "limit", Null);
    LookupPut(conditions, StrKey("offset"), v, StrKey("offset"));
    LookupPut(conditions, StrKey("offset"), v, StrKey("limit"));
    LookupPut(conditions, StrKey("offset"), v, StrKey("offiset"));
  }

  /** `getQueryForSearch($with)` and `getListQuery`: eager loads when `with` is not empty,
      soft-deleted rows when asked, then the keyword, the `wheres`, the order and the
      offset, in that order. */
  function GetListQuery(h: Host, conditions: Entries, with: Val, withTrashed: Val): (r: Result<seq<Op>, Failure>)
    ensures r.Ok? <==> AdvanceSearch(h, conditions).Ok?
    ensures r.Ok? ==>
              r.value == (if Truthy(with) then [With(with)] else [])
                       + (if Truthy(withTrashed) then [WithTrashed] else [])
                       + (SimpleLikeSearch(conditions) + AdvanceSearch(h, conditions).value
                          + OrderSearch(conditions) + OffsetSearch(conditions))
    ensures r.Ok? ==> (WithTrashed in r.value <==> Truthy(withTrashed))
  {
    var base := (if Truthy(with) then [With(with)] else [])
              + (if Truthy(withTrashed) then [WithTrashed] else []);
    var wheres :- AdvanceSearch(h, conditions);
    var search := SimpleLikeSearch(conditions) + wheres + OrderSearch(conditions) + OffsetSearch(conditions);
    WheresNeverTrash(h, conditions);
    ListingNeverTrashes(conditions);
    assert WithTrashed !in SimpleLikeSearch(conditions) + wheres;
    assert WithTrashed !in SimpleLikeSearch(conditions) + wheres + OrderSearch(conditions);
    NoTrashedAfter(base, search);
    Ok(base + search)
  }

  /** The `wheres` calls never ask for soft-deleted rows. */
  lemma WheresNeverTrash(h: Host, conditions: Entries)
    requires AdvanceSearch(h, conditions).Ok?
    ensures WithTrashed !in AdvanceSearch(h, conditions).value
  {
    assert !IsWhereCall(WithTrashed);
  }

  /** Neither do the keyword, order and offset calls. */
  lemma ListingNeverTrashes(conditions: Entries)
    ensures WithTrashed !in SimpleLikeSearch(conditions)
    ensures WithTrashed !in OrderSearch(conditions) && WithTrashed !in OffsetSearch(conditions)
  {
  }

  lemma NoTrashedAfter(base: seq<Op>, search: seq<Op>)
    requires WithTrashed !in search
    ensures WithTrashed in base + search <==> WithTrashed in base
  {
  }

  /** What `getList` returns: a page of the query (`paginate`) or all its rows. */
  datatype Listing =
    | Paginated(query: seq<Op>, perPage: int, columns: Val, page: Val)
    | Rows(query: seq<Op>)

  /** The page size `getList` asks for: the conditions' `page_size`, then their `pageSize`,
      then the request's `page_size`, then its `pageSize`, then the configured default. */
  function PageSize(conditions: Entries, request: Entries, configured: Val): (r: Val)
    ensures (!Has(conditions, "page_size") && !Has(conditions, "pageSize")
             && !Has(request, "page_size") && !Has(request, "pageSize")) ==> r == configured
  {
    var fromRequestCamel := if Has(request, "pageSize") then GetOr(request, "pageSize", Null) else configured;
    var fromRequest := if Has(request, "page_size") then GetOr(request, "page_size", Null) else fromRequestCamel;
    var fromCamel := if Has(conditions, "pageSize") then Get(conditions, StrKey("pageSize")) else fromRequest;
    if Has(conditions, "page_size") then Get(conditions, StrKey("page_size")) else fromCamel
  }

  /** The page size follows a strict precedence: the later assignment in the source wins,
      so the first present source in this list decides. */
  lemma {:induction false} PageSizePrecedence(conditions: Entries, request: Entries, configured: Val)
    ensures PageSize(conditions, request, configured)
         == FirstPresent([(conditions, "page_size"), (conditions, "pageSize"),
                          (request, "page_size"), (request, "pageSize")], configured)
  {
    var s3 := [(request, "pageSize")];
    var s2 := [(request, "page_size")] + s3;
    var s1 := [(conditions, "pageSize")] + s2;
    var s0 := [(conditions, "page_size")] + s1;
    PageSizeWords();
    PresentStep(request, "pageSize", [], configured);
    PresentStep(request, "page_size", s3, configured);
    PresentStep(conditions, "pageSize", s2, configured);
    PresentStep(conditions, "page_size", s1, configured);
    assert s3 == [(request, "pageSize")] + [];
    assert s0 == [(conditions, "page_size"), (conditions, "pageSize"),
                  (request, "page_size"), (request, "pageSize")];
  }

  lemma PageSizeWords()
    ensures Word("page_size") && Word("pageSize")
  {
  }

  /** For a plain word, `array_has` then a read is the first step of `FirstPresent`. */
  lemma PresentStep(a: Entries, key: string, rest: seq<(Entries, string)>, default: Val)
    requires Word(key)
    ensures Has(a, key) ==> GetOr(a, key, Null) == Get(a, StrKey(key))
    ensures FirstPresent([(a, key)] + rest, default)
         == if Has(a, key) then Get(a, StrKey(key)) else FirstPresent(rest, default)
  {
    WordFacts(key);
    PlainKey(a, key, Null);
    assert ([(a, key)] + rest)[1..] == rest;
  }

  /** `getList`: with a `page` entry, `paginate` with the `(int)` page size, the columns
      and that page; otherwise every row with the selected columns. */
  function GetList(h: Host, conditions: Entries, with: Val, selects: Val, withTrashed: Val,
                   request: Entries, configured: Val): (r: Result<Listing, Failure>)
    ensures r.Ok? <==> GetListQuery(h, conditions, with, withTrashed).Ok?
    ensures r.Ok? ==> (r.value.Paginated? <==> Has(conditions, "page"))
    ensures r.Ok? && r.value.Paginated? ==>
              r.value.perPage == IntCast(PageSize(conditions, request, configured))
              && r.value.columns == selects && r.value.page == Get(conditions, StrKey("page"))
              && r.value.query == GetListQuery(h, conditions, with, withTrashed).value
    ensures r.Ok? && r.value.Rows? ==>
              r.value.query == GetListQuery(h, conditions, with, withTrashed).value + [Select(selects)]
  {
    var query :- GetListQuery(h, conditions, with, withTrashed);
    if Has(conditions, "page") then
      Ok(Paginated(query, IntCast(PageSize(conditions, request, configured)), selects, Get(conditions, StrKey("page"))))
    else Ok(Rows(query + [Select(selects)]))
  }

  /** `getCount` as written: it passes `$selects` where `getListQuery` expects
      `$withTrashed`, so soft-deleted rows are counted whenever the column list is
      non-empty (the default `['*']` included) and the caller's `withTrashed` is ignored. */
  function GetCountAsWritten(h: Host, conditions: Entries, with: Val, selects: Val, withTrashed: Val)
    : (r: Result<seq<Op>, Failure>)
    ensures r.Ok? ==> (WithTrashed in r.value <==> Truthy(selects))
  {
    GetListQuery(h, Remove(conditions, StrKey("page")), with, selects)
  }

  /** With the default columns and `withTrashed` false, the as-written count still
      includes soft-deleted rows. */
  lemma GetCountAsWrittenCountsTrashed(h: Host, conditions: Entries, with: Val)
    requires GetCountAsWritten(h, conditions, with, Arr([(IntKey(0), Str("*"))]), Bool(false)).Ok?
    ensures WithTrashed in GetCountAsWritten(h, conditions, with, Arr([(IntKey(0), Str("*"))]), Bool(false)).value
  {
    var columns := Arr([(IntKey(0), Str("*"))]);
    assert Truthy(columns);
    var r := GetCountAsWritten(h, conditions, with, columns, Bool(false));
    assert r.Ok? ==> (WithTrashed in r.value <==> Truthy(columns));
  }

  /** `getCount` as evidently intended: the list query without its `page` entry, with
      soft-deleted rows exactly when `withTrashed` asks for them, whatever the columns. */
  function GetCount(h: Host, conditions: Entries, with: Val, selects: Val, withTrashed: Val)
    : (r: Result<seq<Op>, Failure>)
    ensures r.Ok? ==> (WithTrashed in r.value <==> Truthy(withTrashed))
    ensures r.Ok? <==> AdvanceSearch(h, Remove(conditions, StrKey("page"))).Ok?
  {
    GetListQuery(h, Remove(conditions, StrKey("page")), with, withTrashed)
  }

  /** The intended count does not depend on the selected columns, and it drops only the
      page: the keyword, conditions, order and offset are those of the list. */
  lemma GetCountIgnoresColumns(h: Host, conditions: Entries, with: Val, s1: Val, s2: Val, withTrashed: Val)
    ensures GetCount(h, conditions, with, s1, withTrashed) == GetCount(h, conditions, with, s2, withTrashed)
    ensures GetCount(h, conditions, with, s1, withTrashed)
         == GetListQuery(h, Remove(conditions, StrKey("page")), with, withTrashed)
  {
  }
}

=== FILE: model_scope.dfy ===
/** `ModelScope`: a named query scope with its arguments and, optionally, the model class
    it must be looked up on. */
module ModelScopes {
  import opened PhpValues

  function GetScopeName(s: ModelScope): string
  {
    s.scopeName
  }

  function GetArgs(s: ModelScope): seq<Val>
  {
    s.args
  }

  function GetClassName(s: ModelScope): Val
  {
    s.className
  }

  /** `new ModelScope($scopeName, ...$args)`: the class name starts out null. */
  function New(scopeName: string, args: seq<Val>): (s: ModelScope)
    ensures GetScopeName(s) == scopeName
    ensures GetArgs(s) == args
    ensures GetClassName(s) == Null
  {
    ModelScope(scopeName, args, Null)
  }

  /** `$scope->setClassName($c)`: only the class name changes. */
  function SetClassName(s: ModelScope, c: Val): (r: ModelScope)
    ensures GetClassName(r) == c
    ensures GetScopeName(r) == GetScopeName(s) && GetArgs(r) == GetArgs(s)
  {
    s.(className := c)
  }

  /** Setting the class name twice keeps the second value, and a fresh scope set once
      reports exactly what was set. */
  lemma SetClassNameLatestWins(s: ModelScope, a: Val, b: Val, name: string, args: seq<Val>)
    ensures SetClassName(SetClassName(s, a), b) == SetClassName(s, b)
    ensures SetClassName(New(name, args), a) == ModelScope(name, args, a)
  {
  }
}

=== FILE: normalize.dfy ===
/** `sortOutWhereConditionsPro`: the normaliser that turns the `wheres` of a conditions array
    into a list of one-field condition groups, letting closures, raw expressions and model
    scopes through untouched. */
module Normalize {
  import opened Wrappers
  import opened PhpStrings
  import opened PhpValues
  import opened Failures

  /** One item of the normalised list: `[$field => $operatorAndValue]`, or an item the
      normaliser hands on as it found it. */
  datatype Normalized =
    | FieldCondition(field: string, operators: Val)
    | PassThrough(item: Val)

  /** Items the normaliser does not look into: closures, raw expressions, model scopes. */
  predicate IsPassThrough(v: Val)
  {
    v.Closure? || v.Expr? || v.ScopeObj?
  }

  /** The text `explode` accepts as its subject, or None where PHP 7 refuses the argument
      (with a warning) and `explode` returns null. */
  function ExplodeSubject(v: Val): Option<string>
  {
    match v
    case Null => Some("")
    case Bool(b) => Some(if b then "1" else "")
    case Int(i) => Some(IntToString(i))
    case Str(s) => Some(s)
    case Expr(sql) => Some(sql)
    case _ => None
  }

  /** `explode('->', $item['field'])[0]`: the column before any JSON path. A refused
      subject gives null, which becomes the empty key. */
  function PositionalField(v: Val): (r: string)
    ensures v.Str? ==> r <= v.s && forall i :: 0 <= i < |r| ==> !ArrowAt(v.s, i)
    ensures v.Str? && |r| < |v.s| ==> ArrowAt(v.s, |r|)
  {
    match ExplodeSubject(v)
    case None => ""
    case Some(t) => BeforeArrow(t)
  }

  /** `$item[$name]` on a positional item: arrays and collections give the entry (null
      when missing); a string gives its first character (PHP reads an illegal string offset
      as 0); other scalars give null; an object without array access raises an error. */
  function ItemOffset(item: Val, name: string): (r: Result<Val, Failure>)
    ensures r.Err? <==> item.Closure? || item.Expr? || item.ScopeObj? || item.WhenObj?
    ensures Accessible(item) ==> r == Ok(Get(EntriesOf(item), StrKey(name)))
  {
    match item
    case Arr(es) => Ok(Get(es, StrKey(name)))
    case Coll(es) => Ok(Get(es, StrKey(name)))
    case Str(s) => Ok(Str(if |s| > 0 then s[..1] else ""))
    case Null => Ok(Null)
    case Bool(_) => Ok(Null)
    case Int(_) => Ok(Null)
    case _ => Err(ObjectUsedAsArray)
  }

  /** A positional (integer-keyed) item: handed on when it is a closure, expression or
      scope; otherwise its `field` (up to `->`) and its `value` form the group. */
  function NormalizePositional(item: Val): (r: Result<Normalized, Failure>)
    ensures IsPassThrough(item) ==> r == Ok(PassThrough(item))
    ensures item.WhenObj? ==> r == Err(ObjectUsedAsArray)
    ensures !IsPassThrough(item) && !item.WhenObj? ==> r.Ok? && r.value.FieldCondition?
    ensures Accessible(item) ==>
              r == Ok(FieldCondition(PositionalField(Get(EntriesOf(item), StrKey("field"))),
                                     Get(EntriesOf(item), StrKey("value"))))
  {
    if IsPassThrough(item) then Ok(PassThrough(item))
    else
      match ItemOffset(item, "field")
      case Err(e) => Err(e)
      case Ok(f) => Ok(FieldCondition(PositionalField(f), ItemOffset(item, "value").value))
  }

  /** The field and operator map a keyed entry stands for, before `$` is rewritten:
      `name.like => v` is `name => [like => v]`, a non-array `name => v` is
      `name => [eq => v]`, and an array is already an operator map. */
  function SplitKeyed(key: string, item: Val): (string, Val)
  {
    if '.' in key then (FirstSegment(key, '.'), Arr([(KeyOf(SecondSegment(key, '.')), item)]))
    else if !item.Arr? then (key, Arr([(StrKey("eq"), item)]))
    else (key, item)
  }

  /** A keyed entry. The source's "malformed conditions" check never fires: every branch
      above yields an array. `$` in the field becomes `.` (a relation path). */
  function NormalizeKeyed(key: string, item: Val): (r: Result<Normalized, Failure>)
    ensures r.Ok? && r.value.FieldCondition? && r.value.operators.Arr?
    ensures '$' !in r.value.field
    ensures '.' !in key && !item.Arr? ==> r.value.operators == Arr([(StrKey("eq"), item)])
    ensures '.' !in key && item.Arr? ==> r.value.operators == item
    ensures '.' !in key && '$' !in key ==> r.value.field == key
    ensures '.' !in key ==> r.value.field == ReplaceChar(key, '$', '.')
  {
    var (field, operators) := SplitKeyed(key, item);
    if !operators.Arr? then Err(MalformedConditions)
    else Ok(FieldCondition(ReplaceChar(field, '$', '.'), operators))
  }

  /** One entry of `wheres`: integer keys are positional, string keys name a field. */
  function NormalizeEntry(e: (Key, Val)): Result<Normalized, Failure>
  {
    match e.0
    case IntKey(_) => NormalizePositional(e.1)
    case StrKey(k) => NormalizeKeyed(k, e.1)
  }

  /** The loop of `sortOutWhereConditionsPro`: one group per entry, in order, stopping at the
      first entry that raises. */
  function NormalizeAll(es: Entries): (r: Result<seq<Normalized>, Failure>)
    ensures r.Ok? <==> forall i :: 0 <= i < |es| ==> NormalizeEntry(es[i]).Ok?
    ensures r.Ok? ==> |r.value| == |es|
    ensures r.Ok? ==> forall i :: 0 <= i < |es| ==> r.value[i] == NormalizeEntry(es[i]).value
    ensures r.Err? ==> exists i :: 0 <= i < |es| && NormalizeEntry(es[i]) == Err(r.error)
  {
    if |es| == 0 then Ok([])
    else
      var head :- NormalizeEntry(es[0]);
      var tail :- NormalizeAll(es[1..]);
      Ok([head] + tail)
  }

  /** `sortOutWhereConditionsPro($conditions)`: the groups of `$conditions['wheres']`. A
      missing or non-array `wheres` gives no groups. */
  function SortOut(conditions: Entries): (r: Result<seq<Normalized>, Failure>)
    ensures !Accessible(Get(conditions, StrKey("wheres"))) ==> r == Ok([])
    ensures r.Ok? ==> |r.value| == |EntriesOf(Get(conditions, StrKey("wheres")))|
  {
    NormalizeAll(EntriesOf(Get(conditions, StrKey("wheres"))))
  }

  /** Normalising fails exactly when a positional item is a `When` object, and then only
      with the object-as-array error; the "malformed conditions" error is unreachable. */
  lemma SortOutFailsOnlyOnWhen(conditions: Entries)
    ensures var ws := EntriesOf(Get(conditions, StrKey("wheres")));
            SortOut(conditions).Err? <==>
              exists i :: 0 <= i < |ws| && ws[i].0.IntKey? && ws[i].1.WhenObj?
    ensures SortOut(conditions).Err? ==> SortOut(conditions).error == ObjectUsedAsArray
    ensures SortOut(conditions) != Err(MalformedConditions)
  {
    var ws := EntriesOf(Get(conditions, StrKey("wheres")));
    var r := SortOut(conditions);
    if r.Err? {
      var i :| 0 <= i < |ws| && NormalizeEntry(ws[i]) == Err(r.error);
      assert ws[i].0.IntKey? && ws[i].1.WhenObj?;
    }
    if exists i :: 0 <= i < |ws| && ws[i].0.IntKey? && ws[i].1.WhenObj? {
      var i :| 0 <= i < |ws| && ws[i].0.IntKey? && ws[i].1.WhenObj?;
      assert NormalizeEntry(ws[i]).Err?;
    }
  }

  /** Normalising keeps the list's shape: one group per entry, in order; an entry is handed
      on untouched exactly when it is a positional closure, expression or scope. */
  lemma SortOutShape(conditions: Entries, i: int)
    requires SortOut(conditions).Ok?
    requires 0 <= i < |EntriesOf(Get(conditions, StrKey("wheres")))|
    ensures var ws := EntriesOf(Get(conditions, StrKey("wheres")));
            var out := SortOut(conditions).value;
            |out| == |ws| &&
            (out[i].PassThrough? <==> ws[i].0.IntKey? && IsPassThrough(ws[i].1)) &&
            (out[i].PassThrough? ==> out[i].item == ws[i].1)
  {
  }

  /** A dotted key `a.b...` with `a` free of dots names field `a` (with `$` read as `.`)
      and the operator before the next dot of `b`. */
  lemma {:induction false} DottedKey(a: string, b: string, item: Val)
    requires '.' !in a
    ensures NormalizeKeyed(a + "." + b, item)
         == Ok(FieldCondition(ReplaceChar(a, '$', '.'), Arr([(KeyOf(FirstSegment(b, '.')), item)])))
  {
    SplitAtFirst(a, b, '.');
  }

  /** `$` and `.` are not interchangeable in a key: `a$b => v` compares the relation
      column `a.b` for equality, while `a.b => v` applies the operator `b` to the column
      `a`. */
  lemma {:induction false} DollarIsNotDot(a: string, b: string, v: Val)
    requires '.' !in a && '$' !in a && '.' !in b && '$' !in b
    requires !v.Arr?
    ensures NormalizeKeyed(a + "$" + b, v) == Ok(FieldCondition(a + "." + b, Arr([(StrKey("eq"), v)])))
    ensures NormalizeKeyed(a + "." + b, v) == Ok(FieldCondition(a, Arr([(KeyOf(b), v)])))
  {
    var key := a + "$" + b;
    assert '.' !in key by {
      assert forall i :: 0 <= i < |key| ==> key[i] == '$' || key[i] in a || key[i] in b;
    }
    var replaced := ReplaceChar(key, '$', '.');
    assert replaced == a + "." + b by {
      assert forall i :: 0 <= i < |a| ==> key[i] == a[i];
      assert forall i :: |a| < i < |key| ==> key[i] == b[i - |a| - 1];
    }
    DottedKey(a, b, v);
    ReplaceAbsent(a, '$', '.');
  }

  /** A key `field.operator` of plain words is the operator map `[operator => v]` on
      `field`. */
  lemma DottedWordEntry(field: string, operator: string, v: Val)
    requires '.' !in field && '$' !in field && '.' !in operator
    requires |operator| > 0 && !IsDigit(operator[0]) && operator[0] != '-'
    ensures NormalizeEntry((StrKey(field + "." + operator), v))
         == Ok(FieldCondition(field, Arr([(StrKey(operator), v)])))
  {
    WordKey(operator);
    ReplaceAbsent(field, '$', '.');
    DottedKey(field, operator, v);
    assert FirstSegment(operator, '.') == operator;
  }
}

=== FILE: operators.dfy ===
/** The operator vocabulary of a conditions array and its translation to SQL comparison
    operators (`convertOperator`). */
module Operators {
  import opened PhpStrings
  import opened PhpValues

  /** The tokens the translation rewrites, and what each becomes. */
  const SqlOperators: map<string, string> :=
    map["eq" := "=", "ne" := "<>", "gt" := ">", "gte" := ">=", "ge" := ">=",
        "lt" := "<", "lte" := "<=", "le" := "<="]

  /** One line of `convertOperator`: `$operator = $operator == from ? to : $operator`, with
      PHP 7's loose `==` (an integer key 0 equals any word). */
  function Rewrite(op: Key, from: string, to: string): Key
    requires |from| > 0 && !IsDigit(from[0])
  {
    if KeyEqualsWord(op, from) then StrKey(to) else op
  }

  /** `convertOperator($operator)`: the eight rewrites applied in the source's order. */
  function ConvertOperator(op: Key): (r: Key)
    ensures op.StrKey? && op.s in SqlOperators ==> r == StrKey(SqlOperators[op.s])
    ensures op.StrKey? && op.s !in SqlOperators ==> r == op
    ensures op == IntKey(0) ==> r == StrKey("=")
    ensures op.IntKey? && op.i != 0 ==> r == op
  {
    var r1 := Rewrite(op, "eq", "=");
    var r2 := Rewrite(r1, "ne", "<>");
    var r3 := Rewrite(r2, "gt", ">");
    var r4 := Rewrite(r3, "gte", ">=");
    var r5 := Rewrite(r4, "ge", ">=");
    var r6 := Rewrite(r5, "lt", "<");
    var r7 := Rewrite(r6, "lte", "<=");
    Rewrite(r7, "le", "<=")
  }

  /** Translating twice is translating once: no SQL operator is itself a token. */
  lemma ConvertOperatorIdempotent(op: Key)
    ensures ConvertOperator(ConvertOperator(op)) == ConvertOperator(op)
  {
    var r := ConvertOperator(op);
    assert r.StrKey? ==> r.s !in SqlOperators || r == op;
  }

  /** No SQL operator of the table is the word `mix`, so only `mix` itself translates to it. */
  lemma ConvertNeverMix(op: Key)
    requires op != StrKey("mix")
    ensures ConvertOperator(op) != StrKey("mix")
  {
    if op.StrKey? && op.s in SqlOperators {
      assert SqlOperators[op.s] in {"=", "<>", ">", ">=", "<", "<="};
    }
  }

  /** The tokens of the table are plain lower-case words: each is stored as a string key
      and none collides with the null and membership tests. */
  lemma TableTokens(op: string)
    requires op in SqlOperators
    ensures CtypeLower(op) && '.' !in op && '$' !in op
    ensures KeyOf(op) == StrKey(op)
    ensures op != "in" && op != "not_in" && op != "is" && op != "is_not" && op != "mix"
  {
    assert op in {"eq", "ne", "gt", "gte", "ge", "lt", "lte", "le"};
  }
}

=== FILE: php_strings.dfy ===
/** The string helpers the condition compiler leans on: PHP's `explode`, `str_replace`,
    `trim`, integer text, and Laravel's `camel_case`, `snake_case` and `title_case`,
    all on ASCII text. */
module PhpStrings {
  import opened Wrappers

  // ---------------------------------------------------------------------------
  // Searching and splitting
  // ---------------------------------------------------------------------------

  /** Position of the first `c` in `s`, if any. */
  function IndexOf(s: string, c: char): (r: Option<nat>)
    ensures r.None? <==> c !in s
    ensures r.Some? ==> r.value < |s| && s[r.value] == c && c !in s[..r.value]
  {
    if |s| == 0 then None
    else if s[0] == c then Some(0)
    else
      match IndexOf(s[1..], c)
      case None => None
      case Some(i) =>
        assert s[..i + 1] == [s[0]] + s[1..][..i];
        Some(i + 1)
  }

  /** Glues `parts` back together with `d` between neighbours (PHP `implode`). */
  function Join(parts: seq<string>, d: char): string
  {
    if |parts| == 0 then ""
    else if |parts| == 1 then parts[0]
    else parts[0] + [d] + Join(parts[1..], d)
  }

  /** PHP `explode` with a one-character delimiter: every occurrence of `d` splits. */
  function Explode(s: string, d: char): (parts: seq<string>)
    ensures |parts| >= 1
    ensures |parts| == 1 <==> d !in s
    ensures forall i :: 0 <= i < |parts| ==> d !in parts[i]
    ensures Join(parts, d) == s
    decreases |s|
  {
    match IndexOf(s, d)
    case None => [s]
    case Some(i) =>
      var rest := Explode(s[i + 1..], d);
      assert s == s[..i] + [d] + s[i + 1..];
      [s[..i]] + rest
  }

  /** `explode(d, s)[0]`: the text before the first `d`. */
  function FirstSegment(s: string, d: char): (r: string)
    ensures r <= s
    ensures d !in r
    ensures d in s ==> |r| < |s| && s[|r|] == d
    ensures d !in s ==> r == s
  {
    Explode(s, d)[0]
  }

  /** `explode(d, s)[1]`: the text between the first and the second `d`. */
  function SecondSegment(s: string, d: char): (r: string)
    requires d in s
    ensures d !in r
    ensures s[|FirstSegment(s, d)| + 1..] == r || (r + [d]) <= s[|FirstSegment(s, d)| + 1..]
  {
    var parts := Explode(s, d);
    var i := IndexOf(s, d).value;
    assert parts[1..] == Explode(s[i + 1..], d);
    SplitHead(s[i + 1..], d);
    parts[1]
  }

  /** Splitting `a + d + b` where `a` has no `d`: the first segment is `a` and the second is
      what precedes the next `d` in `b`. */
  lemma SplitAtFirst(a: string, b: string, d: char)
    requires d !in a
    ensures d in a + [d] + b
    ensures FirstSegment(a + [d] + b, d) == a
    ensures SecondSegment(a + [d] + b, d) == FirstSegment(b, d)
  {
    var s := a + [d] + b;
    assert s[|a|] == d;
    var i := IndexOf(s, d).value;
    assert i == |a|;
    assert s[..i] == a;
    assert s[i + 1..] == b;
  }

  /** `explode(d, a + d + b)` for `a` and `b` free of `d` is `[a, b]`. */
  lemma ExplodeTwo(a: string, b: string, d: char)
    requires d !in a && d !in b
    ensures Explode(a + [d] + b, d) == [a, b]
  {
    var s := a + [d] + b;
    assert s[|a|] == d;
    var i := IndexOf(s, d).value;
    assert i == |a|;
    assert s[..i] == a;
    assert s[i + 1..] == b;
  }

  /** The first piece of `explode(d, s)` followed by `d` is a prefix of `s`, unless it is all of `s`. */
  lemma SplitHead(s: string, d: char)
    ensures Explode(s, d)[0] == s || Explode(s, d)[0] + [d] <= s
  {
    match IndexOf(s, d)
    case None =>
    case Some(i) =>
      assert Explode(s, d)[0] == s[..i];
      assert s[..i] + [d] == s[..i + 1];
  }

  /** Whether the two-character separator `->` starts at position `i` of `s`. */
  predicate ArrowAt(s: string, i: int)
  {
    0 <= i && i + 1 < |s| && s[i] == '-' && s[i + 1] == '>'
  }

  /** `explode('->', s)[0]`: the text before the first `->`. */
  function BeforeArrow(s: string): (r: string)
    ensures r <= s
    ensures forall i :: 0 <= i < |r| ==> !ArrowAt(s, i)
    ensures |r| < |s| ==> ArrowAt(s, |r|)
  {
    if |s| < 2 then s
    else if s[0] == '-' && s[1] == '>' then ""
    else
      var rest := BeforeArrow(s[1..]);
      assert forall i :: 1 <= i < 1 + |rest| ==> (ArrowAt(s, i) <==> ArrowAt(s[1..], i - 1));
      [s[0]] + rest
  }

  /** PHP `str_replace(from, to, s)` for one-character needles. */
  function ReplaceChar(s: string, from: char, to: char): (r: string)
    ensures |r| == |s|
    ensures forall i :: 0 <= i < |s| && s[i] != from ==> r[i] == s[i]
    ensures forall i :: 0 <= i < |s| && s[i] == from ==> r[i] == to
    ensures from != to ==> from !in r
  {
    if |s| == 0 then ""
    else [if s[0] == from then to else s[0]] + ReplaceChar(s[1..], from, to)
  }

  /** Replacing a character that does not occur changes nothing. */
  lemma {:induction false} ReplaceAbsent(s: string, from: char, to: char)
    requires from !in s
    ensures ReplaceChar(s, from, to) == s
  {
    if |s| > 0 {
      ReplaceAbsent(s[1..], from, to);
    }
  }

  /** Replacing the one joining character of `a + [from] + b` puts `to` in its place. */
  lemma ReplaceJoin(a: string, b: string, from: char, to: char)
    requires from !in a && from !in b
    ensures ReplaceChar(a + [from] + b, from, to) == a + [to] + b
  {
    var s := a + [from] + b;
    var r := ReplaceChar(s, from, to);
    var t := a + [to] + b;
    forall i | 0 <= i < |t|
      ensures r[i] == t[i]
    {
      if i < |a| {
        assert s[i] == a[i] && t[i] == a[i];
      } else if i > |a| {
        assert s[i] == b[i - |a| - 1] && t[i] == b[i - |a| - 1];
      }
    }
  }

  // ---------------------------------------------------------------------------
  // Trimming
  // ---------------------------------------------------------------------------

  /** The characters PHP's `trim` removes by default: " \t\n\r\0\x0B". */
  predicate IsTrimChar(c: char)
  {
    c == ' ' || c == '\t' || c == '\n' || c == '\r' || c == 0 as char || c == 11 as char
  }

  function TrimLeft(s: string): (r: string)
    ensures |r| <= |s| && r == s[|s| - |r|..]
    ensures forall i :: 0 <= i < |s| - |r| ==> IsTrimChar(s[i])
    ensures |r| > 0 ==> !IsTrimChar(r[0])
  {
    if |s| > 0 && IsTrimChar(s[0]) then TrimLeft(s[1..]) else s
  }

  function TrimRight(s: string): (r: string)
    ensures |r| <= |s| && r == s[..|r|]
    ensures forall i :: |r| <= i < |s| ==> IsTrimChar(s[i])
    ensures |r| > 0 ==> !IsTrimChar(r[|r| - 1])
  {
    if |s| > 0 && IsTrimChar(s[|s| - 1]) then TrimRight(s[..|s| - 1]) else s
  }

  /** PHP `trim(s)`: `s` without its leading and trailing blanks. */
  function Trim(s: string): (r: string)
    ensures |r| <= |s|
    ensures |r| > 0 ==> !IsTrimChar(r[0]) && !IsTrimChar(r[|r| - 1])
    ensures LeadingBlanks(s) + |r| <= |s| && r == s[LeadingBlanks(s)..LeadingBlanks(s) + |r|]
    ensures (|s| == 0 || (!IsTrimChar(s[0]) && !IsTrimChar(s[|s| - 1]))) ==> r == s
  {
    TrimRight(TrimLeft(s))
  }

  /** How many blanks `trim` drops from the front of `s`. */
  function LeadingBlanks(s: string): nat
  {
    |s| - |TrimLeft(s)|
  }

  // ---------------------------------------------------------------------------
  // ASCII letter case
  // ---------------------------------------------------------------------------

  predicate IsUpper(c: char) { 'A' <= c <= 'Z' }

  predicate IsLower(c: char) { 'a' <= c <= 'z' }

  predicate IsLetter(c: char) { IsUpper(c) || IsLower(c) }

  function LowerChar(c: char): (r: char)
    ensures !IsUpper(r)
    ensures IsLetter(c) <==> IsLetter(r)
  {
    if IsUpper(c) then (c as int + 32) as char else c
  }

  function UpperChar(c: char): (r: char)
    ensures !IsLower(r)
    ensures LowerChar(r) == LowerChar(c)
    ensures IsLetter(c) <==> IsLetter(r)
    ensures !IsLetter(c) ==> r == c
  {
    if IsLower(c) then (c as int - 32) as char else c
  }

  /** `mb_strtolower` on ASCII text. */
  function Lower(s: string): (r: string)
    ensures |r| == |s|
    ensures forall i :: 0 <= i < |s| ==> r[i] == LowerChar(s[i])
  {
    if |s| == 0 then "" else [LowerChar(s[0])] + Lower(s[1..])
  }

  lemma {:induction false} LowerAppend(a: string, b: string)
    ensures Lower(a + b) == Lower(a) + Lower(b)
  {
    if |a| == 0 {
      assert a + b == b;
    } else {
      assert (a + b)[1..] == a[1..] + b;
      LowerAppend(a[1..], b);
      assert Lower(a + b) == [LowerChar(a[0])] + (Lower(a[1..]) + Lower(b));
    }
  }

  /** Laravel `title_case` (`mb_convert_case` in title mode): the first letter of every run of
      letters upper-cased, the others lower-cased; other characters end the run. */
  function TitleFrom(s: string, inWord: bool): (r: string)
    ensures |r| == |s|
    ensures forall i :: 0 <= i < |s| ==> LowerChar(r[i]) == LowerChar(s[i])
  {
    if |s| == 0 then ""
    else if IsLetter(s[0]) then
      [if inWord then LowerChar(s[0]) else UpperChar(s[0])] + TitleFrom(s[1..], true)
    else [s[0]] + TitleFrom(s[1..], false)
  }

  function TitleCase(s: string): (r: string)
    ensures Lower(r) == Lower(s)
  {
    TitleFrom(s, false)
  }

  /** The delimiters PHP's `ucwords` starts a new word after: " \t\r\n\f\v". */
  predicate IsUcwordsDelim(c: char)
  {
    c == ' ' || c == '\t' || c == '\r' || c == '\n' || c == 12 as char || c == 11 as char
  }

  /** PHP `ucwords`: upper-case the first character and every character after a delimiter. */
  function UcWords(s: string, atWordStart: bool): (r: string)
    ensures |r| == |s|
    ensures forall i :: 0 <= i < |s| ==> LowerChar(r[i]) == LowerChar(s[i])
    ensures forall i :: 0 <= i < |s| ==> (IsLetter(r[i]) <==> IsLetter(s[i]))
    ensures forall i :: 0 <= i < |s| && !IsLetter(s[i]) ==> r[i] == s[i]
  {
    if |s| == 0 then ""
    else [if atWordStart then UpperChar(s[0]) else s[0]] + UcWords(s[1..], IsUcwordsDelim(s[0]))
  }

  /** The characters PCRE's `\s` matches. */
  predicate IsRegexSpace(c: char)
  {
    c == ' ' || c == '\t' || c == '\n' || c == '\r' || c == 12 as char || c == 11 as char
  }

  /** `s` with every character satisfying `drop` removed. */
  function RemoveWhere(s: string, drop: char -> bool): (r: string)
    ensures |r| <= |s|
    ensures forall c :: c in r ==> c in s && !drop(c)
    ensures (forall i :: 0 <= i < |s| ==> !drop(s[i])) ==> r == s
  {
    if |s| == 0 then ""
    else if drop(s[0]) then RemoveWhere(s[1..], drop)
    else [s[0]] + RemoveWhere(s[1..], drop)
  }

  /** `preg_replace('/(.)(?=[A-Z])/u', '$1_', s)`: an underscore before every upper-case
      letter that is not the first character. */
  function UnderscoreBeforeUpper(s: string, atStart: bool): (r: string)
    ensures |r| >= |s|
    ensures (forall i :: 0 <= i < |s| ==> !IsUpper(s[i])) ==> r == s
  {
    if |s| == 0 then ""
    else (if !atStart && IsUpper(s[0]) then ['_', s[0]] else [s[0]]) + UnderscoreBeforeUpper(s[1..], false)
  }

  /** PHP `ctype_lower`: a non-empty run of lower-case ASCII letters. */
  predicate CtypeLower(s: string)
  {
    |s| > 0 && forall i :: 0 <= i < |s| ==> IsLower(s[i])
  }

  /** Laravel `snake_case` with the `_` delimiter. */
  function SnakeCase(s: string): (r: string)
    ensures CtypeLower(s) ==> r == s
    ensures !CtypeLower(s) ==> forall i :: 0 <= i < |r| ==> !IsUpper(r[i])
  {
    if CtypeLower(s) then s
    else
      var words := UcWords(s, true);
      var squeezed := RemoveWhere(words, IsRegexSpace);
      Lower(UnderscoreBeforeUpper(squeezed, true))
  }

  /** `ucwords` inside a word with no delimiter in it changes nothing. */
  lemma {:induction false} UcWordsWithoutDelims(s: string)
    requires forall i :: 0 <= i < |s| ==> !IsUcwordsDelim(s[i])
    ensures UcWords(s, false) == s
  {
    if |s| > 0 {
      UcWordsWithoutDelims(s[1..]);
    }
  }

  /** Text that is already snake case (no upper-case letter, no white space) is its own
      `snake_case`, even when `ctype_lower` rejects it for an underscore or digit. */
  lemma {:induction false} SnakeCaseOfSnake(s: string)
    requires |s| > 0
    requires forall i :: 0 <= i < |s| ==> !IsUpper(s[i]) && !IsUcwordsDelim(s[i])
    ensures SnakeCase(s) == s
  {
    if !CtypeLower(s) {
      UcWordsWithoutDelims(s[1..]);
      var u := UpperChar(s[0]);
      var words := UcWords(s, true);
      assert words == [u] + s[1..];
      assert !IsRegexSpace(u);
      assert RemoveWhere(words, IsRegexSpace) == words;
      assert UnderscoreBeforeUpper(s[1..], false) == s[1..];
      assert UnderscoreBeforeUpper(words, true) == words;
      var r := Lower(words);
      assert r[0] == s[0];
      assert r == s;
    }
  }

  /** The separators Laravel's `studly_case` turns into word breaks. */
  predicate IsStudlySeparator(c: char)
  {
    c == '-' || c == '_'
  }

  /** Laravel `camel_case`: `lcfirst(studly_case(s))`, where `studly_case` turns `-` and `_`
      into spaces, applies `ucwords` and removes the spaces. */
  function CamelCase(s: string): (r: string)
    ensures '-' !in r && '_' !in r && ' ' !in r
  {
    var spaced := ReplaceChar(ReplaceChar(s, '-', ' '), '_', ' ');
    var words := UcWords(spaced, true);
    assert '-' !in words && '_' !in words by {
      forall i | 0 <= i < |words|
        ensures words[i] != '-' && words[i] != '_'
      {
        if !IsLetter(spaced[i]) {
          assert words[i] == spaced[i];
        }
      }
    }
    var studly := RemoveWhere(words, c => c == ' ');
    if |studly| == 0 then "" else [LowerChar(studly[0])] + studly[1..]
  }

  /** A relation name made only of lower-case letters is its own `camel_case`. */
  lemma CamelCaseOfLowerWord(s: string)
    requires forall i :: 0 <= i < |s| ==> IsLower(s[i])
    ensures CamelCase(s) == s
  {
    ReplaceAbsent(s, '-', ' ');
    ReplaceAbsent(s, '_', ' ');
    var u := UcWords(s, true);
    UcWordsOfLowerWord(s);
    assert forall i :: 0 <= i < |u| ==> u[i] != ' ';
    if |s| > 0 {
      assert u[0] == UpperChar(s[0]);
      assert LowerChar(UpperChar(s[0])) == s[0];
    }
  }

  lemma UcWordsOfLowerWord(s: string)
    requires forall i :: 0 <= i < |s| ==> IsLower(s[i])
    ensures |s| > 0 ==> UcWords(s, true) == [UpperChar(s[0])] + s[1..]
  {
    if |s| > 0 {
      UcWordsNoDelim(s[1..]);
    }
  }

  lemma {:induction false} UcWordsNoDelim(s: string)
    requires forall i :: 0 <= i < |s| ==> IsLower(s[i])
    ensures UcWords(s, false) == s
  {
    if |s| > 0 {
      UcWordsNoDelim(s[1..]);
    }
  }

  // ---------------------------------------------------------------------------
  // Integer text
  // ---------------------------------------------------------------------------

  predicate IsDigit(c: char) { '0' <= c <= '9' }

  function DigitValue(c: char): nat
    requires IsDigit(c)
  {
    c as int - '0' as int
  }

  function DigitChar(d: nat): (c: char)
    requires d < 10
    ensures IsDigit(c) && DigitValue(c) == d
  {
    ('0' as int + d) as char
  }

  predicate AllDigits(s: string)
  {
    forall i :: 0 <= i < |s| ==> IsDigit(s[i])
  }

  /** The value of a run of decimal digits. */
  function DigitsValue(s: string): nat
    requires AllDigits(s)
  {
    if |s| == 0 then 0 else DigitsValue(s[..|s| - 1]) * 10 + DigitValue(s[|s| - 1])
  }

  /** Decimal text of a natural number, without leading zeros. */
  function NatToString(n: nat): (s: string)
    ensures |s| > 0 && AllDigits(s)
  {
    if n < 10 then [DigitChar(n)] else NatToString(n / 10) + [DigitChar(n % 10)]
  }

  /** PHP's `(string)` of an integer. */
  function IntToString(i: int): string
  {
    if i < 0 then "-" + NatToString(-i) else NatToString(i)
  }

  /** The text PHP turns into an integer array key: `0`, or an optional `-` followed by
      digits not starting with `0`. */
  predicate IsCanonicalInt(s: string)
  {
    || s == "0"
    || (|s| > 0 && '1' <= s[0] <= '9' && AllDigits(s))
    || (|s| > 1 && s[0] == '-' && '1' <= s[1] <= '9' && AllDigits(s[1..]))
  }

  function ParseCanonicalInt(s: string): int
    requires IsCanonicalInt(s)
  {
    if s[0] == '-' then -(DigitsValue(s[1..]) as int) else DigitsValue(s)
  }

  lemma {:induction false} NatToStringFacts(n: nat)
    ensures DigitsValue(NatToString(n)) == n
    ensures n > 0 ==> NatToString(n)[0] != '0'
    ensures n == 0 ==> NatToString(n) == "0"
  {
    var s := NatToString(n);
    if n >= 10 {
      NatToStringFacts(n / 10);
      assert s[..|s| - 1] == NatToString(n / 10);
    }
  }

  /** Integer text reads back as the same integer array key. */
  lemma IntToStringRoundTrip(i: int)
    ensures IsCanonicalInt(IntToString(i))
    ensures ParseCanonicalInt(IntToString(i)) == i
  {
    if i < 0 {
      NatToStringFacts(-i);
      assert IntToString(i)[1..] == NatToString(-i);
    } else {
      NatToStringFacts(i);
    }
  }

  /** The leading-digits value PHP's `(int)` cast reads from a string: leading blanks, an
      optional sign, then as many digits as follow (0 when none do). */
  function LeadingInt(s: string): int
  {
    var t := SkipBlanks(s);
    if |t| > 0 && t[0] == '-' then -(DigitsValue(DigitPrefix(t[1..])) as int)
    else if |t| > 0 && t[0] == '+' then DigitsValue(DigitPrefix(t[1..]))
    else DigitsValue(DigitPrefix(t))
  }

  function SkipBlanks(s: string): (r: string)
    ensures |r| <= |s|
  {
    if |s| > 0 && IsRegexSpace(s[0]) then SkipBlanks(s[1..]) else s
  }

  function DigitPrefix(s: string): (r: string)
    ensures r <= s && AllDigits(r)
    ensures |r| < |s| ==> !IsDigit(s[|r|])
  {
    if |s| > 0 && IsDigit(s[0]) then [s[0]] + DigitPrefix(s[1..]) else ""
  }

  /** `(int)` of integer text gives the integer back. */
  lemma LeadingIntOfIntText(i: int)
    ensures LeadingInt(IntToString(i)) == i
  {
    var s := IntToString(i);
    NatToStringFacts(if i < 0 then -i else i);
    if i < 0 {
      assert s[1..] == NatToString(-i);
      DigitPrefixAll(NatToString(-i));
    } else {
      DigitPrefixAll(NatToString(i));
    }
  }

  lemma {:induction false} DigitPrefixAll(s: string)
    requires AllDigits(s)
    ensures DigitPrefix(s) == s
  {
    if |s| > 0 {
      DigitPrefixAll(s[1..]);
    }
  }
}

=== FILE: php_values.dfy ===
/** PHP values as the condition compiler sees them: scalars, ordered arrays keyed by
    integers or strings, and the objects that travel through a conditions array (closures,
    raw expressions, model scopes, `When` choices, collections). */
module PhpValues {
  import opened Wrappers
  import opened PhpStrings

  /** A PHP array key. */
  datatype Key = IntKey(i: int) | StrKey(s: string)

  /** A PHP value. A closure carries a tag that tells closures apart and the value calling
      it produces; the model has no code to run, so that value is fixed up front. */
  datatype Val =
    | Null
    | Bool(b: bool)
    | Int(i: int)
    | Str(s: string)
    | Arr(entries: seq<(Key, Val)>)
    | Coll(items: seq<(Key, Val)>)
    | Closure(tag: string, ret: Val)
    | Expr(sql: string)
    | ScopeObj(scope: ModelScope)
    | WhenObj(when: When)

  /** A named query scope, its arguments, and the class it belongs to (null until set). */
  datatype ModelScope = ModelScope(scopeName: string, args: seq<Val>, className: Val)

  /** A resolved condition choosing between a success value and a fail value. */
  datatype When = When(condition: bool, success: Val, fail: Val)

  /** An ordered PHP array: its entries in insertion order. */
  type Entries = seq<(Key, Val)>

  // ---------------------------------------------------------------------------
  // Keys
  // ---------------------------------------------------------------------------

  /** The key PHP stores for the string `s`: integer text becomes an integer key. */
  function KeyOf(s: string): (k: Key)
    ensures k.StrKey? <==> !IsCanonicalInt(s)
    ensures k.StrKey? ==> k.s == s
  {
    if IsCanonicalInt(s) then IntKey(ParseCanonicalInt(s)) else StrKey(s)
  }

  /** Text that starts with neither a digit nor a minus sign stays a string key. */
  lemma WordKey(s: string)
    requires |s| > 0 && !IsDigit(s[0]) && s[0] != '-'
    ensures KeyOf(s) == StrKey(s)
  {
  }

  /** The text of a key, as `foreach` hands it to string functions. */
  function KeyText(k: Key): string
  {
    match k
    case IntKey(i) => IntToString(i)
    case StrKey(s) => s
  }

  /** PHP never stores integer text as a string key. */
  predicate ValidKey(k: Key)
  {
    k.StrKey? ==> !IsCanonicalInt(k.s)
  }

  /** A key's text is stored under the same key again. */
  lemma KeyTextRoundTrip(k: Key)
    requires ValidKey(k)
    ensures KeyOf(KeyText(k)) == k
  {
    if k.IntKey? {
      IntToStringRoundTrip(k.i);
    }
  }

  // ---------------------------------------------------------------------------
  // Truthiness and loose comparison
  // ---------------------------------------------------------------------------

  /** PHP `boolval` (and `if ($v)`, `array_filter`, `Collection::filter`); floats are not
      modelled. Objects are always true. */
  predicate Truthy(v: Val)
  {
    match v
    case Null => false
    case Bool(b) => b
    case Int(i) => i != 0
    case Str(s) => s != "" && s != "0"
    case Arr(es) => |es| > 0
    case _ => true
  }

  /** `Arr::accessible`: an array, or an object with array access (a collection). */
  predicate Accessible(v: Val)
  {
    v.Arr? || v.Coll?
  }

  /** What `foreach` walks: the entries of an array or collection, nothing otherwise. */
  function EntriesOf(v: Val): Entries
  {
    match v
    case Arr(es) => es
    case Coll(es) => es
    case _ => []
  }

  /** `v == w` in PHP 7 for a word `w` that is not numeric text (`'and'`, `'in'`, ...). */
  predicate LooseEqualsWord(v: Val, w: string)
    requires |w| > 0 && !IsDigit(w[0])
  {
    match v
    case Null => false
    case Bool(b) => b
    case Int(i) => i == 0
    case Str(s) => s == w
    case Expr(sql) => sql == w
    case _ => false
  }

  /** `k == w` for an array key `k` and a non-numeric word `w` (PHP 7 turns `w` into 0 to
      compare it with an integer key). */
  predicate KeyEqualsWord(k: Key, w: string)
    requires |w| > 0 && !IsDigit(w[0])
  {
    match k
    case IntKey(i) => i == 0
    case StrKey(s) => s == w
  }

  /** PHP's `(int)` cast. Strings give their leading integer; an object gives 1 (after a
      notice). */
  function IntCast(v: Val): int
  {
    match v
    case Null => 0
    case Bool(b) => if b then 1 else 0
    case Int(i) => i
    case Str(s) => LeadingInt(s)
    case Arr(es) => if |es| > 0 then 1 else 0
    case _ => 1
  }

  /** PHP 7's `v > 0`: null and booleans compare as booleans, strings by their leading
      number, and an array or object is greater than any integer. */
  predicate GreaterThanZero(v: Val)
  {
    match v
    case Null => false
    case Bool(b) => b
    case Int(i) => i > 0
    case Str(s) => LeadingInt(s) > 0
    case _ => true
  }

  /** The string a value converts to when concatenated; closures, scopes, `When` objects and
      collections have no conversion here (PHP raises an error for the first three). */
  function ToText(v: Val): Option<string>
  {
    match v
    case Null => Some("")
    case Bool(b) => Some(if b then "1" else "")
    case Int(i) => Some(IntToString(i))
    case Str(s) => Some(s)
    case Arr(_) => Some("Array")
    case Expr(sql) => Some(sql)
    case _ => None
  }

  // ---------------------------------------------------------------------------
  // Ordered arrays
  // ---------------------------------------------------------------------------

  /** No key occurs twice, as in every PHP array. */
  predicate DistinctKeys(a: Entries)
  {
    forall i, j :: 0 <= i < j < |a| ==> a[i].0 != a[j].0
  }

  /** The keys present in `a`. */
  function Keys(a: Entries): (ks: set<Key>)
    ensures forall i :: 0 <= i < |a| ==> a[i].0 in ks
    ensures forall k :: k in ks ==> exists i :: 0 <= i < |a| && a[i].0 == k
  {
    if |a| == 0 then {} else {a[0].0} + Keys(a[1..])
  }

  /** `$a[$k]` when `array_key_exists($k, $a)`. */
  function Lookup(a: Entries, k: Key): (r: Option<Val>)
    ensures r.None? <==> k !in Keys(a)
  {
    if |a| == 0 then None
    else if a[0].0 == k then Some(a[0].1)
    else Lookup(a[1..], k)
  }

  /** `$a[$k] ?? null`. */
  function Get(a: Entries, k: Key): Val
  {
    Lookup(a, k).GetOr(Null)
  }

  /** The value of the last entry with key `k`: what assigning the entries one by one leaves. */
  function LookupLast(a: Entries, k: Key): Option<Val>
  {
    if |a| == 0 then None
    else if a[|a| - 1].0 == k then Some(a[|a| - 1].1)
    else LookupLast(a[..|a| - 1], k)
  }

  /** With distinct keys the first and the last entry with a key are the same. */
  lemma {:induction false} LookupLastIsLookup(a: Entries, k: Key)
    requires DistinctKeys(a)
    ensures LookupLast(a, k) == Lookup(a, k)
  {
    if |a| > 0 {
      var init := a[..|a| - 1];
      var last := a[|a| - 1];
      DistinctInit(a);
      LookupLastIsLookup(init, k);
      assert a == init + [last];
      LookupAppend(init, [last], k);
    }
  }

  /** All but the last entry of a distinct-keyed array are distinct-keyed and lack the
      last key. */
  lemma DistinctInit(a: Entries)
    requires DistinctKeys(a) && |a| > 0
    ensures DistinctKeys(a[..|a| - 1]) && a[|a| - 1].0 !in Keys(a[..|a| - 1])
  {
    var init := a[..|a| - 1];
    forall i, j | 0 <= i < j < |init| ensures init[i].0 != init[j].0 {
      assert init[i] == a[i] && init[j] == a[j];
    }
    forall i | 0 <= i < |init| ensures init[i].0 != a[|a| - 1].0 {
      assert init[i] == a[i];
    }
  }

  lemma {:induction false} LookupAppend(a: Entries, b: Entries, k: Key)
    ensures Lookup(a + b, k) == if Lookup(a, k).Some? then Lookup(a, k) else Lookup(b, k)
  {
    if |a| > 0 {
      assert (a + b)[1..] == a[1..] + b;
      LookupAppend(a[1..], b, k);
    } else {
      assert a + b == b;
    }
  }

  lemma {:induction false} LookupLastAppend(a: Entries, b: Entries, k: Key)
    ensures LookupLast(a + b, k) == if LookupLast(b, k).Some? then LookupLast(b, k) else LookupLast(a, k)
  {
    if |b| > 0 {
      assert (a + b)[..|a + b| - 1] == a + b[..|b| - 1];
      LookupLastAppend(a, b[..|b| - 1], k);
    } else {
      assert a + b == a;
    }
  }

  /** `$a[$k] = $v`: overwrite in place when `k` is present, append otherwise. */
  function Put(a: Entries, k: Key, v: Val): (r: Entries)
    ensures Keys(r) == Keys(a) + {k}
    ensures k in Keys(a) ==> |r| == |a|
    ensures k !in Keys(a) ==> r == a + [(k, v)]
  {
    if |a| == 0 then [(k, v)]
    else if a[0].0 == k then [(k, v)] + a[1..]
    else
      ConsSnoc(a, (k, v));
      [a[0]] + Put(a[1..], k, v)
  }

  /** Appending behind the tail and then restoring the head appends to the whole. */
  lemma ConsSnoc<T>(a: seq<T>, e: T)
    requires |a| > 0
    ensures [a[0]] + (a[1..] + [e]) == a + [e]
  {
    assert a == [a[0]] + a[1..];
  }

  /** After `$a[$k] = $v`, key `k` reads `v` and every other key reads as before. */
  lemma {:induction false} LookupPut(a: Entries, k: Key, v: Val, k2: Key)
    ensures Lookup(Put(a, k, v), k2) == if k2 == k then Some(v) else Lookup(a, k2)
  {
    if |a| > 0 && a[0].0 != k {
      LookupPut(a[1..], k, v, k2);
    }
  }

  lemma {:induction false} PutDistinct(a: Entries, k: Key, v: Val)
    requires DistinctKeys(a)
    ensures DistinctKeys(Put(a, k, v))
  {
    if |a| > 0 && a[0].0 != k {
      DistinctTail(a);
      PutDistinct(a[1..], k, v);
      DistinctCons(a[0], Put(a[1..], k, v));
    } else if |a| > 0 {
      DistinctTail(a);
      DistinctCons((k, v), a[1..]);
    }
  }

  /** The tail of a distinct-keyed array is distinct-keyed and lacks the head's key. */
  lemma DistinctTail(a: Entries)
    requires DistinctKeys(a) && |a| > 0
    ensures DistinctKeys(a[1..]) && a[0].0 !in Keys(a[1..])
  {
    var tail := a[1..];
    forall i, j | 0 <= i < j < |tail| ensures tail[i].0 != tail[j].0 {
      assert tail[i] == a[i + 1] && tail[j] == a[j + 1];
    }
    forall i | 0 <= i < |tail| ensures tail[i].0 != a[0].0 {
      assert tail[i] == a[i + 1];
    }
  }

  /** A fresh key in front of a distinct-keyed array keeps the keys distinct. */
  lemma DistinctCons(e: (Key, Val), tail: Entries)
    requires DistinctKeys(tail) && e.0 !in Keys(tail)
    ensures DistinctKeys([e] + tail)
  {
    var r := [e] + tail;
    forall i, j | 0 <= i < j < |r| ensures r[i].0 != r[j].0 {
      assert r[j] == tail[j - 1];
      if i > 0 {
        assert r[i] == tail[i - 1];
      }
    }
  }

  /** `unset($a[$k])`. */
  function Remove(a: Entries, k: Key): (r: Entries)
    ensures Keys(r) == Keys(a) - {k}
    ensures |r| <= |a|
    ensures k !in Keys(a) ==> r == a
  {
    if |a| == 0 then []
    else if a[0].0 == k then Remove(a[1..], k)
    else [a[0]] + Remove(a[1..], k)
  }

  /** After `unset($a[$k])`, key `k` is absent and every other key reads as before. */
  lemma {:induction false} LookupRemove(a: Entries, k: Key, k2: Key)
    ensures Lookup(Remove(a, k), k2) == if k2 == k then None else Lookup(a, k2)
  {
    if |a| > 0 {
      LookupRemove(a[1..], k, k2);
    }
  }

  lemma {:induction false} RemoveDistinct(a: Entries, k: Key)
    requires DistinctKeys(a)
    ensures DistinctKeys(Remove(a, k))
  {
    if |a| > 0 {
      DistinctTail(a);
      RemoveDistinct(a[1..], k);
      if a[0].0 != k {
        DistinctCons(a[0], Remove(a[1..], k));
      }
    }
  }

  /** The values under integer keys, in order: an array read as a list. */
  function Positional(a: Entries): seq<Val>
  {
    if |a| == 0 then []
    else if a[0].0.IntKey? then [a[0].1] + Positional(a[1..])
    else Positional(a[1..])
  }

  lemma {:induction false} PositionalAppend(a: Entries, b: Entries)
    ensures Positional(a + b) == Positional(a) + Positional(b)
  {
    if |a| > 0 {
      assert (a + b)[1..] == a[1..] + b;
      PositionalAppend(a[1..], b);
    } else {
      assert a + b == b;
    }
  }

  lemma {:induction false} PositionalPutString(a: Entries, s: string, v: Val)
    ensures Positional(Put(a, StrKey(s), v)) == Positional(a)
  {
    if |a| > 0 && a[0].0 != StrKey(s) {
      PositionalPutString(a[1..], s, v);
    }
  }

  /** `$a[$k] = $v` for each pair of `ps` in turn. */
  function PutAll(a: Entries, ps: Entries): (r: Entries)
    ensures Keys(r) == Keys(a) + Keys(ps)
    decreases |ps|
  {
    if |ps| == 0 then a
    else
      var r := PutAll(Put(a, ps[0].0, ps[0].1), ps[1..]);
      assert Keys(ps) == {ps[0].0} + Keys(ps[1..]);
      r
  }

  /** After a run of assignments a key holds the value of its last assignment, or what it
      held before when it was not assigned. */
  lemma {:induction false} PutAllLookup(a: Entries, ps: Entries, k: Key)
    ensures Lookup(PutAll(a, ps), k)
         == if LookupLast(ps, k).Some? then LookupLast(ps, k) else Lookup(a, k)
    decreases |ps|
  {
    if |ps| > 0 {
      assert ps == [ps[0]] + ps[1..];
      LookupLastAppend([ps[0]], ps[1..], k);
      PutAllLookup(Put(a, ps[0].0, ps[0].1), ps[1..], k);
      LookupPut(a, ps[0].0, ps[0].1, k);
    }
  }

  /** Assignments keep the keys of an array distinct. */
  lemma {:induction false} PutAllDistinct(a: Entries, ps: Entries)
    requires DistinctKeys(a)
    ensures DistinctKeys(PutAll(a, ps))
    decreases |ps|
  {
    if |ps| > 0 {
      PutDistinct(a, ps[0].0, ps[0].1);
      PutAllDistinct(Put(a, ps[0].0, ps[0].1), ps[1..]);
    }
  }

  /** Every integer key of `a` lies in `[0, n)`. */
  predicate IntKeysBelow(a: Entries, n: int)
  {
    forall i :: 0 <= i < |a| && a[i].0.IntKey? ==> 0 <= a[i].0.i < n
  }

  /** The loop inside `array_merge`: integer keys are renumbered from `next`, string keys
      are assigned (a later one overwrites an earlier one in place). */
  function MergeFrom(acc: Entries, next: int, es: Entries): Entries
    decreases |es|
  {
    if |es| == 0 then acc
    else if es[0].0.IntKey? then MergeFrom(acc + [(IntKey(next), es[0].1)], next + 1, es[1..])
    else MergeFrom(Put(acc, es[0].0, es[0].1), next, es[1..])
  }

  /** PHP `array_merge($a, $b)` on two arrays. */
  function MergeEntries(a: Entries, b: Entries): Entries
  {
    MergeFrom([], 0, a + b)
  }

  /** PHP 7 `array_merge($a, $b)`: null (after a warning) unless both are arrays. */
  function ArrayMerge(a: Val, b: Val): (r: Val)
    ensures r.Null? || r.Arr?
    ensures r.Arr? <==> a.Arr? && b.Arr?
  {
    if a.Arr? && b.Arr? then Arr(MergeEntries(a.entries, b.entries)) else Null
  }

  lemma {:induction false} MergeFromLookupString(acc: Entries, next: int, es: Entries, s: string)
    ensures Lookup(MergeFrom(acc, next, es), StrKey(s))
         == if LookupLast(es, StrKey(s)).Some? then LookupLast(es, StrKey(s)) else Lookup(acc, StrKey(s))
    decreases |es|
  {
    if |es| > 0 {
      var k := StrKey(s);
      var step := if es[0].0.IntKey? then acc + [(IntKey(es[0].0.i), es[0].1)] else acc;
      assert es == [es[0]] + es[1..];
      LookupLastAppend([es[0]], es[1..], k);
      if es[0].0.IntKey? {
        var acc' := acc + [(IntKey(next), es[0].1)];
        MergeFromLookupString(acc', next + 1, es[1..], s);
        LookupAppend(acc, [(IntKey(next), es[0].1)], k);
      } else {
        var acc' := Put(acc, es[0].0, es[0].1);
        MergeFromLookupString(acc', next, es[1..], s);
        LookupPut(acc, es[0].0, es[0].1, k);
      }
    }
  }

  /** `array_merge`: a string key reads its value from the second array when present there,
      from the first otherwise. */
  lemma MergeLookupString(a: Entries, b: Entries, s: string)
    requires DistinctKeys(a) && DistinctKeys(b)
    ensures Lookup(MergeEntries(a, b), StrKey(s))
         == if Lookup(b, StrKey(s)).Some? then Lookup(b, StrKey(s)) else Lookup(a, StrKey(s))
  {
    MergeFromLookupString([], 0, a + b, s);
    LookupLastAppend(a, b, StrKey(s));
    LookupLastIsLookup(a, StrKey(s));
    LookupLastIsLookup(b, StrKey(s));
  }
  /** After unsetting `key` on the left, `array_merge` reads a string key from the right
      first, and never finds `key` unless the right has it. */
  lemma MergeAfterRemove(a: Entries, b: Entries, key: string, s: string)
    requires DistinctKeys(a) && DistinctKeys(b)
    ensures Lookup(MergeEntries(Remove(a, StrKey(key)), b), StrKey(s))
         == if Lookup(b, StrKey(s)).Some? then Lookup(b, StrKey(s))
            else if s == key then None
            else Lookup(a, StrKey(s))
  {
    RemoveDistinct(a, StrKey(key));
    MergeLookupString(Remove(a, StrKey(key)), b, s);
    LookupRemove(a, StrKey(key), StrKey(s));
  }

  /** A key assigned on the left and unset on the right keeps the assigned value through
      `array_merge`. */
  lemma MergeKeepsPut(a: Entries, b: Entries, s: string, v: Val)
    requires DistinctKeys(a) && DistinctKeys(b)
    ensures Lookup(MergeEntries(Put(a, StrKey(s), v), Remove(b, StrKey(s))), StrKey(s)) == Some(v)
  {
    PutDistinct(a, StrKey(s), v);
    RemoveDistinct(b, StrKey(s));
    MergeLookupString(Put(a, StrKey(s), v), Remove(b, StrKey(s)), s);
    LookupPut(a, StrKey(s), v, StrKey(s));
    LookupRemove(b, StrKey(s), StrKey(s));
  }

  lemma {:induction false} MergeFromPositional(acc: Entries, next: int, es: Entries)
    ensures Positional(MergeFrom(acc, next, es)) == Positional(acc) + Positional(es)
    decreases |es|
  {
    if |es| > 0 {
      assert es == [es[0]] + es[1..];
      PositionalAppend([es[0]], es[1..]);
      if es[0].0.IntKey? {
        MergeFromPositional(acc + [(IntKey(next), es[0].1)], next + 1, es[1..]);
        PositionalAppend(acc, [(IntKey(next), es[0].1)]);
      } else {
        MergeFromPositional(Put(acc, es[0].0, es[0].1), next, es[1..]);
        PositionalPutString(acc, es[0].0.s, es[0].1);
      }
    }
  }

  /** `array_merge`: the list part of the result is the list part of the first array
      followed by that of the second. */
  lemma MergePositional(a: Entries, b: Entries)
    ensures Positional(MergeEntries(a, b)) == Positional(a) + Positional(b)
  {
    MergeFromPositional([], 0, a + b);
    PositionalAppend(a, b);
  }

  lemma {:induction false} MergeFromDistinct(acc: Entries, next: int, es: Entries)
    requires DistinctKeys(acc) && IntKeysBelow(acc, next) && next >= 0
    ensures DistinctKeys(MergeFrom(acc, next, es))
    decreases |es|
  {
    if |es| > 0 {
      if es[0].0.IntKey? {
        AppendFreshInt(acc, next, es[0].1);
        MergeFromDistinct(acc + [(IntKey(next), es[0].1)], next + 1, es[1..]);
      } else {
        PutDistinct(acc, es[0].0, es[0].1);
        PutKeepsIntKeys(acc, es[0].0, es[0].1, next);
        MergeFromDistinct(Put(acc, es[0].0, es[0].1), next, es[1..]);
      }
    }
  }

  /** Appending the next free integer key keeps the keys distinct. */
  lemma AppendFreshInt(acc: Entries, next: int, v: Val)
    requires DistinctKeys(acc) && IntKeysBelow(acc, next) && next >= 0
    ensures DistinctKeys(acc + [(IntKey(next), v)])
    ensures IntKeysBelow(acc + [(IntKey(next), v)], next + 1)
  {
    var acc' := acc + [(IntKey(next), v)];
    forall i, j | 0 <= i < j < |acc'|
      ensures acc'[i].0 != acc'[j].0
    {
      assert acc'[i] == acc[i];
      if j < |acc| {
        assert acc'[j] == acc[j];
      }
    }
    forall i | 0 <= i < |acc'| && acc'[i].0.IntKey?
      ensures 0 <= acc'[i].0.i < next + 1
    {
      if i < |acc| {
        assert acc'[i] == acc[i];
      }
    }
  }

  lemma {:induction false} PutKeepsIntKeys(a: Entries, k: Key, v: Val, n: int)
    requires k.StrKey? && IntKeysBelow(a, n)
    ensures IntKeysBelow(Put(a, k, v), n)
  {
    if |a| > 0 && a[0].0 != k {
      PutKeepsIntKeys(a[1..], k, v, n);
    }
  }

  /** `array_merge` always builds an array with distinct keys. */
  lemma MergeDistinct(a: Entries, b: Entries)
    ensures DistinctKeys(MergeEntries(a, b))
  {
    MergeFromDistinct([], 0, a + b);
  }

  /** `array_filter($a)` / `Collection::filter()`: the truthy entries, keys and order kept. */
  function FilterTruthy(a: Entries): (r: Entries)
    ensures |r| <= |a|
    ensures forall i :: 0 <= i < |r| ==> Truthy(r[i].1)
    ensures Keys(r) <= Keys(a)
  {
    if |a| == 0 then []
    else if Truthy(a[0].1) then [a[0]] + FilterTruthy(a[1..])
    else FilterTruthy(a[1..])
  }

  /** Filtering keeps exactly the truthy values under their own keys. */
  lemma {:induction false} FilterTruthyLookup(a: Entries, k: Key)
    requires DistinctKeys(a)
    ensures Lookup(FilterTruthy(a), k)
         == if Lookup(a, k).Some? && Truthy(Lookup(a, k).value) then Lookup(a, k) else None
  {
    if |a| > 0 {
      FilterTruthyLookup(a[1..], k);
      if a[0].0 == k {
        assert k !in Keys(a[1..]);
        assert k !in Keys(FilterTruthy(a[1..]));
      }
    }
  }

  /** A PHP list: the values under the keys 0, 1, 2, ... */
  function ListOf(vs: seq<Val>): (r: Entries)
    ensures |r| == |vs|
    ensures forall i :: 0 <= i < |vs| ==> r[i] == (IntKey(i), vs[i])
  {
    seq(|vs|, i requires 0 <= i < |vs| => (IntKey(i), vs[i]))
  }

  /** The key `(array)` gives a protected property. */
  function ProtectedKey(name: string): Key
  {
    StrKey("\0*\0" + name)
  }

  /** The key `(array)` gives a private property of the class `cls`. */
  function PrivateKey(cls: string, name: string): Key
  {
    StrKey("\0" + cls + "\0" + name)
  }

  const WhenClass := "MatrixLab\\LaravelAdvancedSearch\\When"
  const ModelScopeClass := "MatrixLab\\LaravelAdvancedSearch\\ModelScope"

  /** `(array) $object` for the objects a conditions array carries: every property in
      declaration order, under PHP's mangled key. An `Expression` holds the protected
      `value`; a `When` the private `when`, `success` and `fail`; a `ModelScope` the
      protected `className` and the private `scopeName` and `args`. */
  function ObjectProperties(v: Val): Entries
  {
    match v
    case Expr(sql) => [(ProtectedKey("value"), Str(sql))]
    case WhenObj(w) =>
      [(PrivateKey(WhenClass, "when"), Bool(w.condition)),
       (PrivateKey(WhenClass, "success"), w.success),
       (PrivateKey(WhenClass, "fail"), w.fail)]
    case ScopeObj(m) =>
      [(ProtectedKey("className"), m.className),
       (PrivateKey(ModelScopeClass, "scopeName"), Str(m.scopeName)),
       (PrivateKey(ModelScopeClass, "args"), Arr(ListOf(m.args)))]
    case _ => []
  }

  /** `collect($v)`: the items a collection built from `v` holds. Arrays and collections
      give their entries and null gives nothing. Expressions, scopes and `When` objects go
      through the `(array)` cast; a scalar, and a closure (which PHP's cast wraps like a
      scalar), becomes a one-item list. */
  function Collect(v: Val): (r: Entries)
    ensures Accessible(v) ==> r == EntriesOf(v)
    ensures v.Expr? ==> |r| == 1 && r[0].1 == Str(v.sql)
    ensures v.WhenObj? ==> |r| == 3 && r[0].1 == Bool(v.when.condition)
                           && r[1].1 == v.when.success && r[2].1 == v.when.fail
    ensures v.Null? ==> r == []
    ensures v.Bool? || v.Int? || v.Str? || v.Closure? ==> r == [(IntKey(0), v)]
  {
    match v
    case Arr(es) => es
    case Coll(es) => es
    case Null => []
    case Expr(_) => ObjectProperties(v)
    case ScopeObj(_) => ObjectProperties(v)
    case WhenObj(_) => ObjectProperties(v)
    case _ => [(IntKey(0), v)]
  }
}

=== FILE: query.dfy ===
/** The query the compiler builds, as the sequence of builder calls it makes, and the model
    class the query runs against. Nothing here executes SQL. */
module Query {
  import opened PhpStrings
  import opened PhpValues

  /** `where…` or `orWhere…`: how a condition joins the ones before it. */
  datatype Combinator = AndWhere | OrWhere

  /** One builder call. Groups carry the calls their closure makes on the inner query. */
  datatype Op =
    | With(relations: Val)
    | WithTrashed
    | SearchKeyword(keyword: Val)
    | Compare(comb: Combinator, column: string, operator: Key, value: Val)
    | In(comb: Combinator, column: string, values: Val)
    | NotIn(comb: Combinator, column: string, values: Val)
    | IsNull(comb: Combinator, column: string)
    | NotNull(comb: Combinator, column: string)
    | Group(body: seq<Op>)
    | HasRelation(relation: string, body: seq<Op>)
    | WhereClosure(closure: Val)
    | WhereRaw(sql: string)
    | CallScope(scope: string, args: seq<Val>)
    | OrderBy(orderColumn: Key, direction: Val)
    | Skip(count: int)
    | Take(count: int)
    | Select(columns: Val)

  /** A condition on `column` joined by `comb`. */
  predicate OnColumn(o: Op, column: string, comb: Combinator)
  {
    (o.Compare? || o.In? || o.NotIn? || o.IsNull? || o.NotNull?) && o.column == column && o.comb == comb
  }

  /** The calls `advanceSearch` makes on the outer query. */
  predicate IsWhereCall(o: Op)
  {
    o.Group? || o.HasRelation? || o.WhereClosure? || o.WhereRaw? || o.CallScope?
  }

  /** The searched model class: its class name (`static::class`) and the names of its
      methods. */
  datatype Host = Host(name: string, methods: set<string>)

  /** `ReflectionClass::hasMethod`: PHP method names compare without regard to case. */
  predicate HasMethod(h: Host, m: string)
  {
    exists x :: x in h.methods && Lower(x) == Lower(m)
  }
}

=== FILE: when.dfy ===
/** `When`: a condition resolved once, when the object is built, that picks between a
    success value and a fail value. */
module Whens {
  import opened Wrappers
  import opened PhpValues
  import opened Failures

  /** `new When($value, ...$args)`. A closure condition is called once, here, with `args`
      (the model carries the value that call returns); the outcome goes through `boolval`.
      Both branches start unset. */
  function New(value: Val, args: seq<Val>): (w: When)
    ensures value.Closure? ==> w.condition == Truthy(value.ret)
    ensures !value.Closure? ==> w.condition == Truthy(value)
    ensures w.success == Null && w.fail == Null
  {
    When(Truthy(if value.Closure? then value.ret else value), Null, Null)
  }

  /** `When::make(...$args)`: the first argument is the condition, the rest its arguments;
      with no argument at all the constructor is short of its required one. */
  function Make(args: seq<Val>): (r: Result<When, Failure>)
    ensures |args| == 0 <==> r == Err(TooFewArguments)
    ensures |args| > 0 ==> r == Ok(New(args[0], args[1..]))
  {
    if |args| == 0 then Err(TooFewArguments) else Ok(New(args[0], args[1..]))
  }

  /** `$when->success($v)`: sets the success value and hands back the same choice. */
  function Success(w: When, v: Val): (r: When)
    ensures r.success == v
    ensures r.condition == w.condition && r.fail == w.fail
  {
    w.(success := v)
  }

  /** `$when->fail($v)`: sets the fail value and hands back the same choice. */
  function Fail(w: When, v: Val): (r: When)
    ensures r.fail == v
    ensures r.condition == w.condition && r.success == w.success
  {
    w.(fail := v)
  }

  /** The branch the condition selects. */
  function Chosen(w: When): Val
  {
    if w.condition then w.success else w.fail
  }

  /** `$when->result($handle)`: the selected branch; with `handle` a closure there is
      called and its value returned. */
  function Result(w: When, handle: bool): (r: Val)
    ensures !handle ==> r == Chosen(w)
    ensures handle && Chosen(w).Closure? ==> r == Chosen(w).ret
    ensures handle && !Chosen(w).Closure? ==> r == Chosen(w)
  {
    var chosen := if w.condition then w.success else w.fail;
    if handle && chosen.Closure? then chosen.ret else chosen
  }

  /** Building a choice and setting both branches: the result is the success value exactly
      when the (evaluated) condition is truthy. */
  lemma ResultOfBuiltChoice(value: Val, args: seq<Val>, s: Val, f: Val)
    ensures var w := Fail(Success(New(value, args), s), f);
            Result(w, false) == (if Truthy(if value.Closure? then value.ret else value) then s else f)
  {
  }

  /** Of several `success`/`fail` calls the latest one counts, and an unset branch yields
      null. */
  lemma LatestCallWins(w: When, a: Val, b: Val)
    ensures Success(Success(w, a), b) == Success(w, b)
    ensures Fail(Fail(w, a), b) == Fail(w, b)
    ensures Result(Success(New(Bool(false), []), a), false) == Null
    ensures Result(Fail(New(Bool(true), []), a), false) == Null
  {
  }

  /** `result(true)` differs from `result()` only by calling a closure. */
  lemma HandleOnlyCallsClosures(w: When)
    ensures !Chosen(w).Closure? ==> Result(w, true) == Result(w, false)
    ensures Chosen(w).Closure? ==> Result(w, true) == Result(w, false).ret
  {
  }
}

=== FILE: where_search.dfy ===
/** `advanceSearch` and `makeComboQueryPro`: compiling the normalised condition groups into
    builder calls. */
module WhereSearch {
  import opened Wrappers
  import opened PhpStrings
  import opened PhpValues
  import opened Failures
  import opened Operators
  import opened Normalize
  import opened Query

  /** `$mixType == 'and' ? 'where' : 'orWhere'`, with PHP 7's loose comparison. */
  function CombinatorOf(mix: Val): (c: Combinator)
    ensures c == AndWhere <==> LooseEqualsWord(mix, "and")
  {
    if LooseEqualsWord(mix, "and") then AndWhere else OrWhere
  }

  /** An operator key that falls through to a plain comparison: none of `in`, `not_in`, `is`
      (loosely compared) nor anything whose snake case is `is_not`. */
  predicate IsComparison(op: Key)
  {
    !KeyEqualsWord(op, "in") && !KeyEqualsWord(op, "not_in") && !KeyEqualsWord(op, "is")
    && !(op.StrKey? && SnakeCase(op.s) == "is_not")
  }

  /** One `$operator => $value` pair of `makeComboQueryPro`. `in` needs a non-empty array or
      a collection (PHP's `empty` is false for any object), `not_in` a non-empty array;
      otherwise they add nothing. `is`/`is_not` test for null; anything else compares with
      the translated operator. */
  function OperatorCall(column: string, comb: Combinator, op: Key, value: Val): (r: seq<Op>)
    ensures |r| <= 1
    ensures forall o :: o in r ==> OnColumn(o, column, comb)
    ensures KeyEqualsWord(op, "in") ==>
              (r == [In(comb, column, value)] <==> (value.Arr? && |value.entries| > 0) || value.Coll?)
    ensures !KeyEqualsWord(op, "in") && KeyEqualsWord(op, "not_in") ==>
              (r == [NotIn(comb, column, value)] <==> value.Arr? && |value.entries| > 0)
    ensures KeyEqualsWord(op, "in") && !((value.Arr? && |value.entries| > 0) || value.Coll?) ==> r == []
    ensures !KeyEqualsWord(op, "in") && KeyEqualsWord(op, "not_in") && !(value.Arr? && |value.entries| > 0) ==> r == []
    ensures !KeyEqualsWord(op, "in") && !KeyEqualsWord(op, "not_in") ==> |r| == 1
    ensures !KeyEqualsWord(op, "in") && !KeyEqualsWord(op, "not_in") && KeyEqualsWord(op, "is") ==>
              r == [IsNull(comb, column)]
    ensures (!KeyEqualsWord(op, "in") && !KeyEqualsWord(op, "not_in") && !KeyEqualsWord(op, "is")
             && op.StrKey? && SnakeCase(op.s) == "is_not") ==> r == [NotNull(comb, column)]
    ensures IsComparison(op) ==> r == [Compare(comb, column, ConvertOperator(op), value)]
    ensures forall o :: o in r && o.Compare? ==> IsComparison(op) && o.operator == ConvertOperator(op) && o.value == value
  {
    if KeyEqualsWord(op, "in") then
      (if (value.Arr? && |value.entries| > 0) || value.Coll? then [In(comb, column, value)] else [])
    else if KeyEqualsWord(op, "not_in") then
      (if value.Arr? && |value.entries| > 0 then [NotIn(comb, column, value)] else [])
    else if KeyEqualsWord(op, "is") then [IsNull(comb, column)]
    else if op.StrKey? && SnakeCase(op.s) == "is_not" then [NotNull(comb, column)]
    else [Compare(comb, column, ConvertOperator(op), value)]
  }

  /** The loop of `makeComboQueryPro` over an operator map whose `mix` entry is already
      gone. */
  function ComboCalls(column: string, comb: Combinator, es: Entries): (r: seq<Op>)
    ensures |r| <= |es|
    ensures forall o :: o in r ==> OnColumn(o, column, comb)
  {
    if |es| == 0 then []
    else OperatorCall(column, comb, es[0].0, es[0].1) + ComboCalls(column, comb, es[1..])
  }

  /** `o` is the comparison some pair of `es` asks for. */
  predicate FromPair(o: Op, es: Entries)
  {
    o.Compare? &&
    exists i :: 0 <= i < |es| && IsComparison(es[i].0)
                && o.operator == ConvertOperator(es[i].0) && o.value == es[i].1
  }

  /** Every comparison of a group comes from one of its pairs, with the translated
      operator and the pair's value. */
  lemma {:induction false} ComparisonsFromPairs(column: string, comb: Combinator, es: Entries)
    ensures forall o :: o in ComboCalls(column, comb, es) && o.Compare? ==> FromPair(o, es)
    decreases |es|
  {
    if |es| > 0 {
      var head := OperatorCall(column, comb, es[0].0, es[0].1);
      var tail := ComboCalls(column, comb, es[1..]);
      ComparisonsFromPairs(column, comb, es[1..]);
      forall o: Op | o in head + tail && o.Compare?
        ensures FromPair(o, es)
      {
        if o in head {
          assert IsComparison(es[0].0) && o.operator == ConvertOperator(es[0].0) && o.value == es[0].1;
        } else {
          var j :| 0 <= j < |es[1..]| && IsComparison(es[1..][j].0)
                   && o.operator == ConvertOperator(es[1..][j].0) && o.value == es[1..][j].1;
          assert es[1..][j] == es[j + 1];
        }
      }
    }
  }

  /** Any operator other than `in`, `not_in`, `is` and `is_not` is one comparison. */
  lemma ComparisonCall(column: string, comb: Combinator, op: Key, v: Val)
    requires IsComparison(op)
    ensures OperatorCall(column, comb, op, v) == [Compare(comb, column, ConvertOperator(op), v)]
  {
  }

  /** A map of plain comparisons yields one comparison per pair, in order. */
  lemma {:induction false} PlainComparisons(column: string, comb: Combinator, es: Entries)
    requires forall i :: 0 <= i < |es| ==> IsComparison(es[i].0)
    ensures |ComboCalls(column, comb, es)| == |es|
    ensures forall i :: 0 <= i < |es| ==>
              ComboCalls(column, comb, es)[i] == Compare(comb, column, ConvertOperator(es[i].0), es[i].1)
    decreases |es|
  {
    if |es| > 0 {
      var rest := es[1..];
      var tail := ComboCalls(column, comb, rest);
      var r := ComboCalls(column, comb, es);
      forall i | 0 <= i < |rest|
        ensures IsComparison(rest[i].0)
      {
        assert rest[i] == es[i + 1];
      }
      PlainComparisons(column, comb, rest);
      ComparisonCall(column, comb, es[0].0, es[0].1);
      assert r == [Compare(comb, column, ConvertOperator(es[0].0), es[0].1)] + tail;
      forall i | 1 <= i < |es|
        ensures r[i] == Compare(comb, column, ConvertOperator(es[i].0), es[i].1)
      {
        assert r[i] == tail[i - 1] && rest[i - 1] == es[i];
      }
    }
  }

  /** `makeComboQueryPro($q, $field, $mixType, $operatorAndValue)`. */
  function MakeComboQuery(column: string, mix: Val, es: Entries): (r: seq<Op>)
    ensures forall o :: o in r ==> OnColumn(o, column, CombinatorOf(mix))
  {
    ComboCalls(column, CombinatorOf(mix), es)
  }

  /** `array_get($ov, 'mix', 'and')` and `unset($ov['mix'])`: the join word and the operator
      pairs left. Null, booleans and integers read as no operators: PHP 7 ignores an unset
      on them (7.4 only warns). A string cannot have an offset unset, and objects other than
      collections cannot be used as arrays. */
  function SplitMix(column: string, operators: Val): (r: Result<(Val, Entries), Failure>)
    ensures Accessible(operators) ==> r.Ok? && StrKey("mix") !in Keys(r.value.1)
    ensures Accessible(operators) && StrKey("mix") !in Keys(EntriesOf(operators)) ==>
              r == Ok((Str("and"), EntriesOf(operators)))
    ensures (operators.Null? || operators.Bool? || operators.Int?) ==> r == Ok((Str("and"), []))
    ensures operators.Str? ==> r == Err(CannotUnsetOffset(column))
    ensures r.Err? <==> !(Accessible(operators) || operators.Null? || operators.Bool? || operators.Int?)
  {
    match operators
    case Arr(es) => Ok((Lookup(es, StrKey("mix")).GetOr(Str("and")), Remove(es, StrKey("mix"))))
    case Coll(es) => Ok((Lookup(es, StrKey("mix")).GetOr(Str("and")), Remove(es, StrKey("mix"))))
    case Null => Ok((Str("and"), []))
    case Bool(_) => Ok((Str("and"), []))
    case Int(_) => Ok((Str("and"), []))
    case Str(_) => Err(CannotUnsetOffset(column))
    case _ => Err(ObjectUsedAsArray)
  }

  /** One `$field => $operatorAndValue` group of `advanceSearch`: a field with a dot
      becomes `whereHas` on the camel-cased relation before the dot (the inner conditions
      keep the full dotted column); any other field becomes a nested `where` group. */
  function FieldGroup(column: string, operators: Val): (r: Result<Op, Failure>)
    ensures r.Ok? <==> SplitMix(column, operators).Ok?
    ensures r.Ok? && '.' in column ==>
              r.value.HasRelation? && r.value.relation == CamelCase(FirstSegment(column, '.'))
    ensures r.Ok? && '.' !in column ==> r.value.Group?
  {
    var (mix, rest) :- SplitMix(column, operators);
    var body := MakeComboQuery(column, mix, rest);
    if '.' in column then Ok(HasRelation(CamelCase(FirstSegment(column, '.')), body))
    else Ok(Group(body))
  }

  /** The calls one group's body makes. */
  function BodyOf(o: Op): seq<Op>
  {
    if o.Group? || o.HasRelation? then o.body else []
  }

  /** `mix` only chooses the join word: no comparison ever uses it as an operator, and every
      call in a group joins by what `mix` says. */
  lemma {:induction false} MixIsNotAnOperator(column: string, operators: Val)
    requires Accessible(operators)
    ensures FieldGroup(column, operators).Ok?
    ensures var mix := Lookup(EntriesOf(operators), StrKey("mix")).GetOr(Str("and"));
            forall o :: o in BodyOf(FieldGroup(column, operators).value) ==>
              OnColumn(o, column, CombinatorOf(mix)) && (o.Compare? ==> o.operator != StrKey("mix"))
  {
    var es := EntriesOf(operators);
    var rest := Remove(es, StrKey("mix"));
    var mix := Lookup(es, StrKey("mix")).GetOr(Str("and"));
    var body := ComboCalls(column, CombinatorOf(mix), rest);
    AccessibleGroup(column, operators);
    ComparisonsFromPairs(column, CombinatorOf(mix), rest);
    forall o | o in body && o.Compare?
      ensures o.operator != StrKey("mix")
    {
      var i :| 0 <= i < |rest| && IsComparison(rest[i].0)
                && o.operator == ConvertOperator(rest[i].0) && o.value == rest[i].1;
      assert rest[i].0 in Keys(rest);
      ConvertNeverMix(rest[i].0);
    }
  }

  /** The group of an array or collection holds the calls for its pairs without `mix`,
      joined by what `mix` says. */
  lemma AccessibleGroup(column: string, operators: Val)
    requires Accessible(operators)
    ensures FieldGroup(column, operators).Ok?
    ensures BodyOf(FieldGroup(column, operators).value)
         == ComboCalls(column, CombinatorOf(Lookup(EntriesOf(operators), StrKey("mix")).GetOr(Str("and"))),
                       Remove(EntriesOf(operators), StrKey("mix")))
  {
    var es := EntriesOf(operators);
    assert SplitMix(column, operators)
        == Ok((Lookup(es, StrKey("mix")).GetOr(Str("and")), Remove(es, StrKey("mix"))));
  }

  /** A positional item whose operator map is null, a boolean or an integer (`['field' => 'age',
      'value' => 5]`) still searches: its group is empty. A string map raises on the unset. */
  lemma ScalarOperatorsEmptyGroup(column: string, operators: Val)
    requires operators.Null? || operators.Bool? || operators.Int? || operators.Str?
    ensures operators.Str? <==> FieldGroup(column, operators).Err?
    ensures FieldGroup(column, operators).Ok? ==> BodyOf(FieldGroup(column, operators).value) == []
  {
  }

  /** An operator key that `makeComboQueryPro` turns into a null test: loosely `is`, or any
      spelling whose snake case is `is_not`, once `in` and `not_in` are ruled out. */
  predicate NullTest(op: Key)
  {
    !KeyEqualsWord(op, "in") && !KeyEqualsWord(op, "not_in")
    && (KeyEqualsWord(op, "is") || (op.StrKey? && SnakeCase(op.s) == "is_not"))
  }

  /** Null tests emit `whereNull` for `is` and `whereNotNull` otherwise, whatever value
      they are given. */
  lemma NullTestsIgnoreValue(column: string, comb: Combinator, op: Key, v1: Val, v2: Val)
    requires NullTest(op)
    ensures OperatorCall(column, comb, op, v1) == OperatorCall(column, comb, op, v2)
    ensures KeyEqualsWord(op, "is") ==> OperatorCall(column, comb, op, v1) == [IsNull(comb, column)]
    ensures !KeyEqualsWord(op, "is") ==> OperatorCall(column, comb, op, v1) == [NotNull(comb, column)]
  {
  }

  /** `is` is a null test, and `is_not` and the camel-cased `isNot` are both not-null
      tests, since `snake_case('isNot')` is `is_not`. */
  lemma NullTestSpellings()
    ensures NullTest(StrKey("is")) && KeyEqualsWord(StrKey("is"), "is")
    ensures NullTest(StrKey("is_not")) && !KeyEqualsWord(StrKey("is_not"), "is")
    ensures NullTest(StrKey("isNot")) && !KeyEqualsWord(StrKey("isNot"), "is")
  {
    SnakeCaseOfSnake("is_not");
    IsNotCamel();
  }

  /** `snake_case('isNot')`: `IsNot` after `ucwords`, `Is_Not` after the underscores, then
      lower case. */
  lemma IsNotCamel()
    ensures SnakeCase("isNot") == "is_not"
  {
    assert !CtypeLower("isNot") by { assert !IsLower("isNot"[2]); }
    IsNotWords();
    IsNotUnderscore();
    IsNotLower();
  }

  lemma IsNotLower()
    ensures Lower("Is_Not") == "is_not"
  {
    var r := Lower("Is_Not");
    assert |r| == 6;
    assert r[0] == 'i' && r[1] == 's' && r[2] == '_' && r[3] == 'n' && r[4] == 'o' && r[5] == 't';
  }

  lemma IsNotWords()
    ensures RemoveWhere(UcWords("isNot", true), IsRegexSpace) == "IsNot"
  {
    IsNotUcWords();
    IsNotNoSpace();
  }

  lemma IsNotUcWords()
    ensures UcWords("isNot", true) == "IsNot"
  {
    UcWordsWithoutDelims("sNot");
    assert "isNot"[1..] == "sNot";
  }

  lemma IsNotNoSpace()
    ensures RemoveWhere("IsNot", IsRegexSpace) == "IsNot"
  {
    var s := "IsNot";
    forall i | 0 <= i < |s|
      ensures !IsRegexSpace(s[i])
    {
    }
  }

  lemma IsNotUnderscore()
    ensures UnderscoreBeforeUpper("IsNot", true) == "Is_Not"
  {
    assert UnderscoreBeforeUpper("t", false) == "t";
    assert UnderscoreBeforeUpper("ot", false) == "ot";
    assert UnderscoreBeforeUpper("Not", false) == "_Not";
    assert UnderscoreBeforeUpper("sNot", false) == "s_Not";
  }

  /** `title_case` only changes letter case, and PHP finds methods regardless of case: a
      scope is found exactly when the class has a method spelled `scope` + the scope name
      in any case. */
  lemma {:induction false} ScopeMethodLookup(h: Host, name: string)
    ensures HasMethod(h, "scope" + TitleCase(name)) <==> HasMethod(h, "scope" + name)
  {
    LowerAppend("scope", TitleCase(name));
    LowerAppend("scope", name);
    assert Lower("scope" + TitleCase(name)) == Lower("scope" + name);
  }

  /** A model scope in the conditions: the class it names (the searched model when unset)
      must be the searched model and define the scope method; then the scope is called by
      its name with its arguments, otherwise the search fails naming the method. */
  function ScopeCall(h: Host, s: ModelScope): (r: Result<seq<Op>, Failure>)
    ensures r.Ok? <==> (!Truthy(s.className) || s.className == Str(h.name))
                       && HasMethod(h, "scope" + s.scopeName)
    ensures r.Ok? ==> r.value == [CallScope(s.scopeName, s.args)]
    ensures r.Err? ==> r.error == ScopeNotFound(h.name, "scope" + TitleCase(s.scopeName))
  {
    ScopeMethodLookup(h, s.scopeName);
    var className := if Truthy(s.className) then s.className else Str(h.name);
    var scopeMethod := "scope" + TitleCase(s.scopeName);
    if className == Str(h.name) && HasMethod(h, scopeMethod) then Ok([CallScope(s.scopeName, s.args)])
    else Err(ScopeNotFound(h.name, scopeMethod))
  }

  /** The calls one normalised item makes: a group, `where($closure)`, `whereRaw`, or a
      scope call. Anything else the normaliser might hand on adds nothing. */
  function ItemCalls(h: Host, n: Normalized): (r: Result<seq<Op>, Failure>)
    ensures r.Ok? && (n.FieldCondition? || IsPassThrough(n.item)) ==> |r.value| == 1
    ensures r.Ok? && n.PassThrough? && !IsPassThrough(n.item) ==> r.value == []
    ensures n.PassThrough? && (n.item.Closure? || n.item.Expr?) ==> r.Ok?
    ensures r.Ok? ==> forall o :: o in r.value ==> IsWhereCall(o)
    ensures n.PassThrough? && n.item.Closure? ==> r == Ok([WhereClosure(n.item)])
    ensures n.PassThrough? && n.item.Expr? ==> r == Ok([WhereRaw(n.item.sql)])
    ensures n.PassThrough? && n.item.ScopeObj? ==> r == ScopeCall(h, n.item.scope)
    ensures n.FieldCondition? ==>
              (r.Ok? <==> FieldGroup(n.field, n.operators).Ok?) &&
              (r.Ok? ==> r.value == [FieldGroup(n.field, n.operators).value])
  {
    match n
    case FieldCondition(column, operators) =>
      var group :- FieldGroup(column, operators);
      Ok([group])
    case PassThrough(item) =>
      match item
      case Closure(_, _) => Ok([WhereClosure(item)])
      case Expr(sql) => Ok([WhereRaw(sql)])
      case ScopeObj(s) => ScopeCall(h, s)
      case _ => Ok([])
  }

  /** The loop of `advanceSearch` over the normalised items, stopping at the first failure. */
  function AllCalls(h: Host, ns: seq<Normalized>): (r: Result<seq<Op>, Failure>)
    ensures r.Ok? <==> forall i :: 0 <= i < |ns| ==> ItemCalls(h, ns[i]).Ok?
    ensures r.Ok? ==> forall o :: o in r.value ==> IsWhereCall(o)
    ensures r.Ok? && (forall i :: 0 <= i < |ns| ==> ns[i].FieldCondition? || IsPassThrough(ns[i].item)) ==>
              |r.value| == |ns| &&
              forall i :: 0 <= i < |ns| ==> r.value[i] == ItemCalls(h, ns[i]).value[0]
  {
    if |ns| == 0 then Ok([])
    else
      var head :- ItemCalls(h, ns[0]);
      var tail :- AllCalls(h, ns[1..]);
      Ok(head + tail)
  }

  /** `advanceSearch($query, $conditions)`: the calls the `wheres` of `conditions` make. */
  function AdvanceSearch(h: Host, conditions: Entries): (r: Result<seq<Op>, Failure>)
    ensures r.Ok? ==> forall o :: o in r.value ==> IsWhereCall(o)
  {
    var ns :- SortOut(conditions);
    AllCalls(h, ns)
  }

  /** Every `wheres` entry makes exactly one call, in order; the search fails only on a
      positional `When` object or a scope the model does not define, or on an operator map
      that cannot lose its `mix` entry. */
  lemma {:induction false} AdvanceSearchOnePerEntry(h: Host, conditions: Entries)
    requires AdvanceSearch(h, conditions).Ok?
    ensures var ws := EntriesOf(Get(conditions, StrKey("wheres")));
            var ns := SortOut(conditions).value;
            |AdvanceSearch(h, conditions).value| == |ws| &&
            forall i :: 0 <= i < |ws| ==> AdvanceSearch(h, conditions).value[i] == ItemCalls(h, ns[i]).value[0]
  {
    var ws := EntriesOf(Get(conditions, StrKey("wheres")));
    var ns := SortOut(conditions).value;
    forall i | 0 <= i < |ns|
      ensures ns[i].FieldCondition? || IsPassThrough(ns[i].item)
    {
      assert ns[i] == NormalizeEntry(ws[i]).value;
    }
  }

  /** A key `rel$col.op` of plain words is the column `rel.col` with the single operator
      `op`. */
  lemma {:induction false} RelationKey(rel: string, col: string, op: string, v: Val)
    requires '.' !in rel && '$' !in rel && '.' !in col && '$' !in col
    requires op in SqlOperators
    ensures NormalizeKeyed(rel + "$" + col + "." + op, v)
         == Ok(FieldCondition(rel + "." + col, Arr([(StrKey(op), v)])))
  {
    var field := rel + "$" + col;
    DollarJoin(rel, col);
    TableTokens(op);
    DottedKey(field, op, v);
  }

  /** `rel$col` has no dot, and reading `$` as `.` gives `rel.col`. */
  lemma DollarJoin(rel: string, col: string)
    requires '.' !in rel && '$' !in rel && '.' !in col && '$' !in col
    ensures '.' !in rel + "$" + col
    ensures ReplaceChar(rel + "$" + col, '$', '.') == rel + "." + col
  {
    ReplaceJoin(rel, col, '$', '.');
    assert rel + "$" + col == rel + ['$'] + col;
    assert rel + "." + col == rel + ['.'] + col;
  }

  /** A single comparison pair joins by `where` and yields that one comparison. */
  lemma OneComparison(column: string, op: Key, v: Val)
    requires IsComparison(op) && op != StrKey("mix")
    ensures SplitMix(column, Arr([(op, v)])) == Ok((Str("and"), [(op, v)]))
    ensures MakeComboQuery(column, Str("and"), [(op, v)])
         == [Compare(AndWhere, column, ConvertOperator(op), v)]
  {
    var es := [(op, v)];
    assert StrKey("mix") !in Keys(es);
    assert CombinatorOf(Str("and")) == AndWhere;
    assert OperatorCall(column, AndWhere, op, v) == [Compare(AndWhere, column, ConvertOperator(op), v)];
    assert ComboCalls(column, AndWhere, es[1..]) == [];
  }

  /** A dotted column with one comparison operator becomes `whereHas` on the camel-cased
      text before the first dot, holding that one comparison joined by `where`. */
  lemma {:induction false} DottedColumnGroup(rel: string, col: string, op: Key, v: Val)
    requires '.' !in rel && IsComparison(op) && op != StrKey("mix")
    ensures FieldGroup(rel + "." + col, Arr([(op, v)]))
         == Ok(HasRelation(CamelCase(rel), [Compare(AndWhere, rel + "." + col, ConvertOperator(op), v)]))
  {
    var column := rel + "." + col;
    OneComparison(column, op, v);
    assert '.' in column && FirstSegment(column, '.') == rel by {
      SplitAtFirst(rel, col, '.');
      assert column == rel + ['.'] + col;
    }
  }

  /** A relation condition end to end: `rel$col.op => v`, with plain words and a token the
      operator table knows, becomes `whereHas` on the camel-cased relation with one
      comparison of the column `rel.col`. */
  lemma RelationComparison(rel: string, col: string, op: string, v: Val)
    requires '.' !in rel && '$' !in rel && '.' !in col && '$' !in col
    requires op in SqlOperators
    ensures var n := NormalizeKeyed(rel + "$" + col + "." + op, v);
            n.Ok? && FieldGroup(n.value.field, n.value.operators)
              == Ok(HasRelation(CamelCase(rel),
                                [Compare(AndWhere, rel + "." + col, StrKey(SqlOperators[op]), v)]))
  {
    RelationKey(rel, col, op, v);
    TableTokens(op);
    DottedColumnGroup(rel, col, StrKey(op), v);
  }
}

=== FILE: wrappers.dfy ===
/** Option and Result, the failure-carrying wrappers the rest of the model returns. */
module Wrappers {

  datatype Option<+T> = None | Some(value: T) {

    /** The wrapped value, or `default` when there is none. */
    function GetOr(default: T): T {
      match this
      case Some(v) => v
      case None => default
    }
  }

  datatype Result<+R, +E> = Ok(value: R) | Err(error: E) {

    predicate IsFailure() {
      Err?
    }

    function PropagateFailure<U>(): Result<U, E>
      requires Err?
    {
      Err(error)
    }

    function Extract(): R
      requires Ok?
    {
      value
    }
  }
}
